=== FILE: README.md ===
# Resources merge strategy, modelled in Dafny

This project models the default merge strategy of the resources-merge Maven
plugin (`DefaultResourcesMergeStrategy`). After a build has copied resources
into the origin directory (by default `classes` below the build directory), the
strategy merges files that belong together into one target file per group:

1. **Scan.** Walk the origin directory recursively. Drop directories and
   files whose bare name is in `excludeFiles`.
2. **Resolve.** Match each remaining bare file name against `filesRegex`. A
   name that does not match in full is skipped. Otherwise the target name is
   one of:
   - the configured `mergeFile`, when one is set and not blank;
   - otherwise the texts of capturing groups 1..n, concatenated in order.
     A group that took no part in the match contributes nothing.
3. **Group.** Fold the resolved files into a map from target name to group.
   A group is a list of files plus a common root, which is a list of path
   components. Combining two groups:
   - appends their file lists;
   - keeps the longest common prefix of their roots.
4. **Write.** For every group, pick the output directory:
   - a configured `mergeDir`, resolved against the build directory;
   - otherwise the group's common root, when
     `useCommonRootDirByGroupIfOutputDirEmpty` is set;
   - otherwise `generated-resources` below the build directory.

   Then open the target file for appending. For each member, in list order:
   - skip it if it is the target itself;
   - otherwise append `numOfNewlinesBeforeMergeResource` line separators,
     unless this is the first member of a target that was empty;
   - append the formatted comment, if a comment format is set;
   - append the member's bytes;
   - delete the member.
5. **Delete.** Make one attempt. When retrying is enabled, make up to three
   more, after 50, 250 and 750 ms. A member that is already absent counts as
   deleted.

Any error ends the run. The first one checked is a blank `filesRegex`.

The strategy tests `filesRegex`, `mergeFile` and the concatenated target name
with the plexus utilities' `StringUtils.isEmpty`, which trims first. So a
*blank* string, empty or made only of characters at or below U+0020, counts
as unset there (`Target.IsBlank`). `mergeDir`, `originDir` and the comment
format are tested with `isNotEmpty`, which does not trim, so they are unset
only when empty.

## Modules

- `Wrappers` holds `Option` and `Result`.
- `Errors` lists the failures a run can end with.
- `Paths` covers the path arithmetic:
  - Java's `String.split` on the separator, which drops trailing empty pieces;
  - `String.join`;
  - the bare file name;
  - the child of a directory;
  - both `resolveDir` overloads.
- `Target` covers target resolution. The pattern engine's answer for one
  file name is an input: `None` for no match, otherwise the captured text of
  each group, with `None` for a group that did not participate. `Resolve`
  states the outcome as a function. `ResolveTarget` is the string-builder
  loop, proved equal to it.
- `Grouping` covers the groups:
  - the longest common prefix of roots, and its algebra;
  - the imperative combine `Merge`, with its index loop;
  - the collector fold `GroupAll`;
  - what the fold computes whatever the order of the files.
- `FileSystem` is the disk: a map from absolute path to bytes, plus the
  outcomes of the coming delete attempts, as the environment will decide
  them.
  - `DeleteOn` specifies the bounded-retry delete.
  - The class `FileSystem` updates the disk in place. Its `Delete` method is
    the retry loop.
- `Writer` covers appending one group to its target.
  - `WriteGroup` specifies it on the disk value.
  - `WriteGroupTo` is the nested loop over members and newlines, acting on a
    `FileSystem` object.
- `Strategy` covers the whole run:
  - the configuration;
  - the scan filter;
  - collecting the groups, in `Collect` and its single-pass method
    `GroupListing`;
  - the output directory;
  - writing every group, in `WriteAll` and the method `WriteGroups`;
  - the entry point `Merge`.

  A hash map's iteration order is unspecified. So `WriteGroups` picks the
  next key arbitrarily and returns the order it used, and its contract holds
  for every such order.

The source documents the output directory in common-root mode as the
common root directory of the merged files (`DefaultResourcesMergeStrategy.java`
lines 110-111 and 378). The code, however, seeds each group's root with the
member's whole split path, file name included: `wrap` splits the absolute path
(line 342) and `of` keeps it (lines 397-399). The model follows the code:
- `Grouping.SingletonRoot` shows the root of a one-file group.
- `Strategy.SingletonGroupFails` shows the consequence. In common-root mode
  the output directory of a one-file group is the member file itself. Opening
  the target inside it fails.

Files with a group of their own therefore need a merge directory, or common
roots switched off. Because common-root targets are written inside the origin
tree, a later run lists a merged target again; `Strategy.SecondRunFails` shows
that a target listed on its own then makes the run fail.

## Model

| member | source | states |
|---|---|---|
| `Paths.ResolveDir` | resources-merge-support/src/main/java/com/xmcx/mavenplugins/resourcesmerge/support/DefaultResourcesMergeStrategy.java:435-441 | An absolute child is returned unchanged. A relative child is placed directly inside the parent: the parent, one separator unless the parent already ends with one, then the child. An absolute parent or child gives an absolute result. |
| `Paths.ResolveDirOrDefault` | resources-merge-support/src/main/java/com/xmcx/mavenplugins/resourcesmerge/support/DefaultResourcesMergeStrategy.java:427-430 | The child used is the configured one, or the default when the configured one is empty. An absolute child used is returned unchanged. A relative one is placed directly inside the parent, with exactly one separator between them. |
| `Paths.Child` | resources-merge-support/src/main/java/com/xmcx/mavenplugins/resourcesmerge/support/DefaultResourcesMergeStrategy.java:217 | The target path is the directory, one separator unless the directory already ends with one, then the file name. It is absolute when the directory is. |
| `Paths.ChildComponents` | resources-merge-support/src/main/java/com/xmcx/mavenplugins/resourcesmerge/support/DefaultResourcesMergeStrategy.java:217 | The components of the target path are the directory's components (without the empty one a trailing separator makes) followed by the file name's. |
| `Paths.JoinSplit` | resources-merge-support/src/main/java/com/xmcx/mavenplugins/resourcesmerge/support/DefaultResourcesMergeStrategy.java:342 | Splitting a non-empty path that does not end with the separator, then joining the components, gives the path back. |
| `Paths.JoinPieces` | resources-merge-support/src/main/java/com/xmcx/mavenplugins/resourcesmerge/support/DefaultResourcesMergeStrategy.java:342 | Joining all separator-delimited pieces of any string, empty ones included, gives the string back. |
| `Paths.PiecesJoin` | resources-merge-support/src/main/java/com/xmcx/mavenplugins/resourcesmerge/support/DefaultResourcesMergeStrategy.java:342 | Splitting the join of separator-free components gives those components back. |
| `Paths.FileNameIsLastComponent` | resources-merge-support/src/main/java/com/xmcx/mavenplugins/resourcesmerge/support/DefaultResourcesMergeStrategy.java:308-310 | The bare file name that is matched is the last component of the split path. |
| `Paths.JoinedComponentsPrefix` | resources-merge-support/src/main/java/com/xmcx/mavenplugins/resourcesmerge/support/DefaultResourcesMergeStrategy.java:210 | Joining any prefix of a path's split components gives a prefix of the path. |
| `Target.Resolve` | resources-merge-support/src/main/java/com/xmcx/mavenplugins/resourcesmerge/support/DefaultResourcesMergeStrategy.java:311-340 | A file is skipped exactly when its name does not match. A match with a merge file that is not blank targets exactly that file. A produced target name is never blank. Without such a merge file, a produced target is the concatenation of the captured texts. A rejection happens only when the merge file is blank, and is the no-capturing-group error or the blank-name error for that path. |
| `Target.ResolveTarget` | resources-merge-support/src/main/java/com/xmcx/mavenplugins/resourcesmerge/support/DefaultResourcesMergeStrategy.java:317-340 | The string-builder loop over groups 1..gc computes exactly `Resolve`. |
| `Target.ConcatAppend` | resources-merge-support/src/main/java/com/xmcx/mavenplugins/resourcesmerge/support/DefaultResourcesMergeStrategy.java:324-331 | The captured texts of two runs of groups concatenate to the texts of the combined run. |
| `Target.ConcatAt` | resources-merge-support/src/main/java/com/xmcx/mavenplugins/resourcesmerge/support/DefaultResourcesMergeStrategy.java:325-330 | Group i's text sits right after the texts of groups before it and before those after it (ascending order). |
| `Target.ConcatBlank` | resources-merge-support/src/main/java/com/xmcx/mavenplugins/resourcesmerge/support/DefaultResourcesMergeStrategy.java:331-337 | The concatenation is blank if and only if every group is absent or captured only blank text. |
| `Target.ResolveByGroups` | resources-merge-support/src/main/java/com/xmcx/mavenplugins/resourcesmerge/support/DefaultResourcesMergeStrategy.java:318-337 | With the merge file unset or blank: no groups gives the no-capturing-group error, and groups that are all absent or blank give the blank-name error. If some group captured non-blank text, the target is the ordered concatenation. |
| `Target.ConcatThree` | resources-merge-support/src/main/java/com/xmcx/mavenplugins/resourcesmerge/support/DefaultResourcesMergeStrategy.java:324-331 | For three groups, the name is the three texts in order. |
| `Grouping.Lcp` | resources-merge-support/src/main/java/com/xmcx/mavenplugins/resourcesmerge/support/DefaultResourcesMergeStrategy.java:408-416 | The combined root is a prefix of both roots and is maximal: at its length one root ends or the two differ. |
| `Grouping.LcpUnique` | resources-merge-support/src/main/java/com/xmcx/mavenplugins/resourcesmerge/support/DefaultResourcesMergeStrategy.java:408-416 | Any common prefix that is maximal in that sense is the combined root. |
| `Grouping.LcpCommutative` | resources-merge-support/src/main/java/com/xmcx/mavenplugins/resourcesmerge/support/DefaultResourcesMergeStrategy.java:404-416 | Combining roots is commutative. |
| `Grouping.LcpAssociative` | resources-merge-support/src/main/java/com/xmcx/mavenplugins/resourcesmerge/support/DefaultResourcesMergeStrategy.java:405-416 | Combining roots is associative. |
| `Grouping.LcpIdempotent` | resources-merge-support/src/main/java/com/xmcx/mavenplugins/resourcesmerge/support/DefaultResourcesMergeStrategy.java:406-414 | Combining a root with itself gives it back. |
| `Grouping.Merge` | resources-merge-support/src/main/java/com/xmcx/mavenplugins/resourcesmerge/support/DefaultResourcesMergeStrategy.java:404-421 | The index loop yields a root that is a maximal common prefix of both roots, and file lists a.files followed by b.files. |
| `Grouping.LcpAllLongest` | resources-merge-support/src/main/java/com/xmcx/mavenplugins/resourcesmerge/support/DefaultResourcesMergeStrategy.java:409-416 | Folding the combine over any non-empty list of paths yields their longest common prefix: a prefix of all, and they do not all agree one component further. |
| `Grouping.LongestUnique` | resources-merge-support/src/main/java/com/xmcx/mavenplugins/resourcesmerge/support/DefaultResourcesMergeStrategy.java:410-412 | Two paths lists with the same members have the same longest common prefix. |
| `Grouping.GroupAllKeys` | resources-merge-support/src/main/java/com/xmcx/mavenplugins/resourcesmerge/support/DefaultResourcesMergeStrategy.java:202 | The map's keys are exactly the targets of the resolved files. |
| `Grouping.GroupAllContents` | resources-merge-support/src/main/java/com/xmcx/mavenplugins/resourcesmerge/support/DefaultResourcesMergeStrategy.java:397-421 | Each group's files are the files with its target, in encounter order, and its root is the fold of their split paths. |
| `Grouping.GroupMembership` | resources-merge-support/src/main/java/com/xmcx/mavenplugins/resourcesmerge/support/DefaultResourcesMergeStrategy.java:200-202 | Every resolved file lies in the group of its target. A group holds only files resolved to its key. Its root is the longest common prefix of its members' split paths. |
| `Grouping.FilesForAppend` | resources-merge-support/src/main/java/com/xmcx/mavenplugins/resourcesmerge/support/DefaultResourcesMergeStrategy.java:417-419 | The files of a target over two runs of entries are those of the first run followed by those of the second. |
| `Grouping.FilesForPermutation` | resources-merge-support/src/main/java/com/xmcx/mavenplugins/resourcesmerge/support/DefaultResourcesMergeStrategy.java:417-419 | Reordering the resolved files leaves each target's file multiset unchanged. |
| `Grouping.GroupAllOrderIndependent` | resources-merge-support/src/main/java/com/xmcx/mavenplugins/resourcesmerge/support/DefaultResourcesMergeStrategy.java:202 | Folding the same files in any order yields the same targets, and for each target the same root and the same file multiset. |
| `Grouping.SingletonRoot` | resources-merge-support/src/main/java/com/xmcx/mavenplugins/resourcesmerge/support/DefaultResourcesMergeStrategy.java:397-399 | A one-file group's root is the file's whole split path, file name included. |
| `Grouping.RootPrefixOfMembers` | resources-merge-support/src/main/java/com/xmcx/mavenplugins/resourcesmerge/support/DefaultResourcesMergeStrategy.java:404-416 | Every resolved file's split path starts with the root of its group. |
| `FileSystem.Attempts` | resources-merge-support/src/main/java/com/xmcx/mavenplugins/resourcesmerge/support/DefaultResourcesMergeStrategy.java:288-296 | Attempts stop at the first success. They never exceed the budget, and a failure uses the whole budget. |
| `FileSystem.PlanDelete` | resources-merge-support/src/main/java/com/xmcx/mavenplugins/resourcesmerge/support/DefaultResourcesMergeStrategy.java:277-300 | With deletion disabled, it succeeds without an attempt. An absent file succeeds on the first attempt. The count never exceeds the allowed attempts. |
| `FileSystem.DeleteOn` | resources-merge-support/src/main/java/com/xmcx/mavenplugins/resourcesmerge/support/DefaultResourcesMergeStrategy.java:277-300 | The file is gone after a successful enabled delete. Otherwise the files are unchanged, and no other file is ever touched. |
| `FileSystem.AttemptsFirstSuccess` | resources-merge-support/src/main/java/com/xmcx/mavenplugins/resourcesmerge/support/DefaultResourcesMergeStrategy.java:288-295 | When attempt n is the first to succeed, deleting succeeds after n+1 attempts. |
| `FileSystem.AttemptsAllFail` | resources-merge-support/src/main/java/com/xmcx/mavenplugins/resourcesmerge/support/DefaultResourcesMergeStrategy.java:288-299 | When every attempt fails, all are made and deleting fails. |
| `FileSystem.FirstSuccess` | resources-merge-support/src/main/java/com/xmcx/mavenplugins/resourcesmerge/support/DefaultResourcesMergeStrategy.java:293-294 | A successful attempt has a first successful attempt at or before it. |
| `FileSystem.PlanDeleteOutcome` | resources-merge-support/src/main/java/com/xmcx/mavenplugins/resourcesmerge/support/DefaultResourcesMergeStrategy.java:278-299 | Deleting a present file succeeds if and only if one of the allowed attempts succeeds. On success the last attempt made is the first successful one; on failure every allowed attempt was made. |
| `FileSystem.DeleteRetryScenarios` | resources-merge-support/src/main/java/com/xmcx/mavenplugins/resourcesmerge/support/DefaultResourcesMergeStrategy.java:282-299 | At most one attempt without retry and four with it. Two failures then a success delete after three attempts; all failures report after four. |
| `FileSystem.FileSystem.OpenForAppend` | resources-merge-support/src/main/java/com/xmcx/mavenplugins/resourcesmerge/support/DefaultResourcesMergeStrategy.java:218-219 | Yields the target's previous length (0 when absent) and creates it empty when absent. |
| `FileSystem.FileSystem.Append` | resources-merge-support/src/main/java/com/xmcx/mavenplugins/resourcesmerge/support/DefaultResourcesMergeStrategy.java:231-237 | Appends bytes to one file and changes nothing else. |
| `FileSystem.FileSystem.TryDelete` | resources-merge-support/src/main/java/com/xmcx/mavenplugins/resourcesmerge/support/DefaultResourcesMergeStrategy.java:278 | One attempt succeeds when the file is absent or the attempt deletes it, and consumes one outcome. |
| `FileSystem.FileSystem.Delete` | resources-merge-support/src/main/java/com/xmcx/mavenplugins/resourcesmerge/support/DefaultResourcesMergeStrategy.java:277-300 | The retry loop over the delays leaves exactly the disk and result that `DeleteOn` specifies. |
| `Writer.Repeat` | resources-merge-support/src/main/java/com/xmcx/mavenplugins/resourcesmerge/support/DefaultResourcesMergeStrategy.java:230-232 | n line separators take n times the separator's length. |
| `Writer.RepeatAdd` | resources-merge-support/src/main/java/com/xmcx/mavenplugins/resourcesmerge/support/DefaultResourcesMergeStrategy.java:230-232 | One copy is the line separator itself, and m + n copies are m copies followed by n copies, so the bytes written are exactly the separator repeated. |
| `Writer.SeparatorRule` | resources-merge-support/src/main/java/com/xmcx/mavenplugins/resourcesmerge/support/DefaultResourcesMergeStrategy.java:227-237 | In the written target, a target that was absent or empty starts with the first member's comment and bytes, with no newlines before them. A target that held bytes has exactly the configured count of newlines (none when not positive) between its old bytes and the first member's comment. The whole target is its old bytes, the first block, then the later blocks defined member by member, each with exactly that count of newlines before its comment. |
| `Writer.BlocksFromLater` | resources-merge-support/src/main/java/com/xmcx/mavenplugins/resourcesmerge/support/DefaultResourcesMergeStrategy.java:227-237 | From the second member on, the bytes appended are the later blocks: each present member other than the target, preceded by exactly the configured newlines. |
| `Writer.AppendNewlines` | resources-merge-support/src/main/java/com/xmcx/mavenplugins/resourcesmerge/support/DefaultResourcesMergeStrategy.java:230-232 | The loop appends exactly count separators to the target and nothing else. |
| `Writer.AppendBlock` | resources-merge-support/src/main/java/com/xmcx/mavenplugins/resourcesmerge/support/DefaultResourcesMergeStrategy.java:227-237 | Appends to the target the member's separator newlines, its comment and its bytes, in that order. |
| `Writer.WriteMember` | resources-merge-support/src/main/java/com/xmcx/mavenplugins/resourcesmerge/support/DefaultResourcesMergeStrategy.java:220-238 | One turn of the member loop leaves the disk and error that `MemberStep` specifies. |
| `Writer.WriteGroupTo` | resources-merge-support/src/main/java/com/xmcx/mavenplugins/resourcesmerge/support/DefaultResourcesMergeStrategy.java:214-243 | Writing a group in place leaves exactly the disk and error that `WriteGroup` specifies. |
| `Writer.BlocksFromFrame` | resources-merge-support/src/main/java/com/xmcx/mavenplugins/resourcesmerge/support/DefaultResourcesMergeStrategy.java:234-237 | What the members add depends only on those members' files. |
| `Writer.MemberStepSuccess` | resources-merge-support/src/main/java/com/xmcx/mavenplugins/resourcesmerge/support/DefaultResourcesMergeStrategy.java:222-238 | A member step that succeeds grows the target by that member's block. The member is deleted when deletion is enabled and unchanged otherwise. No other file changes. |
| `Writer.RunMembersFrame` | resources-merge-support/src/main/java/com/xmcx/mavenplugins/resourcesmerge/support/DefaultResourcesMergeStrategy.java:220-239 | Writing members changes no file but the target and those members. |
| `Writer.RunMembersDeleted` | resources-merge-support/src/main/java/com/xmcx/mavenplugins/resourcesmerge/support/DefaultResourcesMergeStrategy.java:221-238 | After successful writes, each member other than the target was present, and is gone when deletion is enabled or unchanged otherwise. |
| `Writer.RunMembersContent` | resources-merge-support/src/main/java/com/xmcx/mavenplugins/resourcesmerge/support/DefaultResourcesMergeStrategy.java:220-237 | After successful writes, the target grows by exactly the members' blocks, in list order. |
| `Writer.WriteGroupSuccess` | resources-merge-support/src/main/java/com/xmcx/mavenplugins/resourcesmerge/support/DefaultResourcesMergeStrategy.java:214-239 | A completed group had a non-empty output directory that is not a file. The target ends with its old bytes (none if new) followed by one block per member in list order; a member equal to the target contributes no block. Every other member was present and is gone exactly when deletion is enabled. No other file changes. |
| `Writer.WriteGroupFailure` | resources-merge-support/src/main/java/com/xmcx/mavenplugins/resourcesmerge/support/DefaultResourcesMergeStrategy.java:214-243 | A failed group names the empty output directory, the target it could not create or fill, or a member (not the target) it could not delete. |
| `Writer.RunMembersFailure` | resources-merge-support/src/main/java/com/xmcx/mavenplugins/resourcesmerge/support/DefaultResourcesMergeStrategy.java:220-242 | A failure inside the member loop is the target error or the deletion error of one of the remaining members. |
| `Strategy.Scan` | resources-merge-support/src/main/java/com/xmcx/mavenplugins/resourcesmerge/support/DefaultResourcesMergeStrategy.java:196-199 | A path survives the scan if and only if it is listed as a non-directory whose bare name is not excluded. |
| `Strategy.GroupListing` | resources-merge-support/src/main/java/com/xmcx/mavenplugins/resourcesmerge/support/DefaultResourcesMergeStrategy.java:196-202 | The single pass of filter, resolve and combine computes exactly `Collect`, including the first rejection. |
| `Strategy.AddToGroups` | resources-merge-support/src/main/java/com/xmcx/mavenplugins/resourcesmerge/support/DefaultResourcesMergeStrategy.java:202 | Adding a resolved file either combines it into its target's group or starts that group. |
| `Strategy.WriteGroups` | resources-merge-support/src/main/java/com/xmcx/mavenplugins/resourcesmerge/support/DefaultResourcesMergeStrategy.java:207-244 | Visits each group at most once, and every group unless a write fails, in which case the failing group is the last visited. The disk and error are those of `WriteAll` in that order. |
| `Strategy.Merge` | resources-merge-support/src/main/java/com/xmcx/mavenplugins/resourcesmerge/support/DefaultResourcesMergeStrategy.java:172-245 | When collecting fails (empty pattern or a rejected file) the disk is untouched, that error is reported and no group is visited. Otherwise the run visits each collected group at most once, all of them unless a write fails (then the failing group is the last visited), with the disk and error of `WriteAll` in that order. |
| `Strategy.ResolveAllStops` | resources-merge-support/src/main/java/com/xmcx/mavenplugins/resourcesmerge/support/DefaultResourcesMergeStrategy.java:320-336 | Once a file is rejected, later files do not change the outcome. |
| `Strategy.ResolveAllSucceeds` | resources-merge-support/src/main/java/com/xmcx/mavenplugins/resourcesmerge/support/DefaultResourcesMergeStrategy.java:319-337 | Resolution succeeds if and only if no listed file is rejected. |
| `Strategy.ResolveAllFirstRejected` | resources-merge-support/src/main/java/com/xmcx/mavenplugins/resourcesmerge/support/DefaultResourcesMergeStrategy.java:319-337 | On failure the error is that of the first rejected file in listing order. |
| `Strategy.ResolveAllEntries` | resources-merge-support/src/main/java/com/xmcx/mavenplugins/resourcesmerge/support/DefaultResourcesMergeStrategy.java:342-343 | Every resolved entry is a scanned file with its split path and its target. Every matched scanned file has such an entry. |
| `Strategy.CollectGroups` | resources-merge-support/src/main/java/com/xmcx/mavenplugins/resourcesmerge/support/DefaultResourcesMergeStrategy.java:197-202 | Group members are listed, kept and resolved to their group's key, so dropped files are in no group and a file is in at most one. Every kept, matched file is in its target's group. |
| `Strategy.FilesForDistinct` | resources-merge-support/src/main/java/com/xmcx/mavenplugins/resourcesmerge/support/DefaultResourcesMergeStrategy.java:202 | A target's files, taken from entries for distinct files, are distinct. |
| `Strategy.ResolveAllDistinct` | resources-merge-support/src/main/java/com/xmcx/mavenplugins/resourcesmerge/support/DefaultResourcesMergeStrategy.java:200-201 | Resolving distinct files yields entries for distinct files. |
| `Strategy.ScanDistinct` | resources-merge-support/src/main/java/com/xmcx/mavenplugins/resourcesmerge/support/DefaultResourcesMergeStrategy.java:196-199 | The scan keeps a listing's distinct paths distinct. |
| `Strategy.CollectDistinct` | resources-merge-support/src/main/java/com/xmcx/mavenplugins/resourcesmerge/support/DefaultResourcesMergeStrategy.java:196-202 | When the listing names each path once, no collected group lists a member twice, which is what the group-write lemmas require. |
| `Strategy.CollectErrors` | resources-merge-support/src/main/java/com/xmcx/mavenplugins/resourcesmerge/support/DefaultResourcesMergeStrategy.java:174-176 | The empty-pattern error occurs exactly when the pattern is blank (empty or whitespace only). Otherwise collecting fails exactly when some kept file is rejected, with that file's error. |
| `Strategy.NoMatchNoGroups` | resources-merge-support/src/main/java/com/xmcx/mavenplugins/resourcesmerge/support/DefaultResourcesMergeStrategy.java:311-315 | If no kept file matches the pattern, collection yields no groups, and writing that empty group set leaves the disk unchanged with no error. |
| `Strategy.OutputDirChoice` | resources-merge-support/src/main/java/com/xmcx/mavenplugins/resourcesmerge/support/DefaultResourcesMergeStrategy.java:181-186 | An absolute merge directory is used as is. A relative one is placed directly inside the build directory with exactly one separator. Without one, common-root mode joins the group's root; otherwise `generated-resources` is placed inside the build directory the same way. Only common-root mode depends on the group. |
| `Strategy.CommonRootContainsMembers` | resources-merge-support/src/main/java/com/xmcx/mavenplugins/resourcesmerge/support/DefaultResourcesMergeStrategy.java:208-213 | In common-root mode each group's output directory is a prefix of every member's path. |
| `Strategy.SingletonGroupFails` | resources-merge-support/src/main/java/com/xmcx/mavenplugins/resourcesmerge/support/DefaultResourcesMergeStrategy.java:209-219 | In common-root mode a one-file group's output directory is the member file itself, and writing it fails on opening the target. |
| `Strategy.SecondRunFails` | resources-merge-support/src/main/java/com/xmcx/mavenplugins/resourcesmerge/support/DefaultResourcesMergeStrategy.java:207-219 | In common-root mode, a merged target left alone in the origin tree that matches the pattern forms a group of one on the next run, and writing that group fails on creating the target. |
| `Strategy.WriteAllStops` | resources-merge-support/src/main/java/com/xmcx/mavenplugins/resourcesmerge/support/DefaultResourcesMergeStrategy.java:207-244 | A failed run fails in some group after every earlier group was written; the later groups are not visited. |
| `Strategy.MessageBundleTarget` | resources-merge-support/src/main/java/com/xmcx/mavenplugins/resourcesmerge/support/DefaultResourcesMergeStrategy.java:325-331 | Message-bundle example: base name, absent locale group and extension give `message.properties`. |
| `Strategy.MessageBundleLocaleTarget` | resources-merge-support/src/main/java/com/xmcx/mavenplugins/resourcesmerge/support/DefaultResourcesMergeStrategy.java:324-331 | Message-bundle example: a locale group gives `message_en.properties`. |
| `Strategy.MessageBundleGroups` | resources-merge-support/src/main/java/com/xmcx/mavenplugins/resourcesmerge/support/DefaultResourcesMergeStrategy.java:197-202 | Message-bundle example: four resolved entries for two targets, folded in encounter order, make two groups of two, each holding its files in that order. |

## Left out

- Maven expression evaluation and build-directory creation (`evaluateDir`, `evaluateString`). The evaluated build directory is an input.
- Directory traversal (`Files.walk`) is an input function from a directory to its listing, in traversal order. A failure to list the origin directory is not modelled.
- The pattern engine is an input function from a bare file name to the capture groups. A pattern that fails to compile is not modelled.
- `String.format` with UTF-8 encoding is an input function, and so is the encoded line separator. A malformed comment format is not modelled.
- Directories are implicit: any prefix of a file path.
  - Creating the output directory fails only for the empty path.
  - Other `mkdirs` failures (permissions, an ancestor that is a regular file) are not modelled.
  - A target path that names an existing directory is not modelled.
- I/O failures while reading or appending bytes are not modelled. Three I/O failures are modelled, each as `CannotCreateResourceFile`:
  - creating the output directory fails for the empty path;
  - opening the target fails when the output directory is an existing regular file;
  - a member is absent when its turn comes. On Unix, comparing it with the target reads both files' attributes, so the comparison fails before anything is written for it.
- `Files.isSameFile` is modelled as path equality. Links, and different spellings of one file, are not modelled. Neither is the normalisation `java.io.File` applies to the paths it is given.
- `Paths.ResolveDir` and `Paths.ResolveDirOrDefault` keep a configured merge or origin directory as spelled. `java.io.File` folds duplicate separators and drops a trailing one, so a `mergeDir` of `a//x` names `a/x` in the source but a different path in the model, and a target already under `a/x` is not appended to. An empty child, or a name that starts with the separator, also differs from `java.io.File`. Joined roots are unaffected: they are built from the components of a split path, so they have no empty components.
- The garbage-collection hint and the sleeps between delete attempts. Only the number and outcome of attempts are modelled.
- The Windows separator, which `String.split` reads as a regular expression. The separator is an abstract character.
- Logging, and the member count in the info message.
- An unset `excludeFiles` is the empty set, and an unset `filesRegex` is the empty string.
- The Mojo, the strategy interface, the exception type and the unused comparators.
- The order in which groups are written (hash map iteration) is chosen by `Strategy.WriteGroups` and returned; it is not determined by the model.
- `Writer.WriteGroupSuccess` requires the group's members to be distinct, and so do `Writer.RunMembersContent` and `Writer.SeparatorRule`. `Strategy.CollectDistinct` derives this for every collected group from a listing that names each path once. That a directory walk lists each file once is taken as given, not modelled.
- `Writer.RunMembersDeleted` requires distinct members for the same reason.

=== FILE: errors.dfy ===
/** The failures a merge run can end with; each aborts the rest of the run. */
module Errors {

  datatype MergeError =
    /** The file name pattern is empty. */
    | EmptyFilesRegex
    /** No merge file is configured and the pattern has no capturing group. */
    | NoCapturingGroup
    /** A file matched, but its capturing groups produced an empty target name. */
    | EmptyTargetFilename(path: string)
    /** The output directory of a group could not be created. */
    | CannotCreateOutputDir(dir: string)
    /** The target file could not be opened, or a member could not be read into it. */
    | CannotCreateResourceFile(target: string)
    /** A merged member could not be deleted within the allowed attempts. */
    | CannotDeleteResource(path: string)
}

=== FILE: filesystem.dfy ===
/**
 * The disk the strategy works on: regular files as a map from absolute path
 * to contents, and the outcomes that the coming delete attempts will have
 * (whether the file then got deleted or was found absent), as the environment
 * decides them.
 */
module FileSystem {

  newtype Byte = b: int | 0 <= b < 256

  datatype Disk = Disk(files: map<string, seq<Byte>>, outcomes: seq<bool>)

  /** The waits, in milliseconds, before each further delete attempt when retrying. */
  const Delays: seq<nat> := [50, 250, 750]

  /** One attempt, plus one after each wait when retrying. */
  function MaxAttempts(retryable: bool): nat
  {
    if retryable then 1 + |Delays| else 1
  }

  /** The outcome of the `k`-th coming attempt; beyond the known outcomes an attempt fails. */
  predicate OutcomeAt(outcomes: seq<bool>, k: nat)
  {
    k < |outcomes| && outcomes[k]
  }

  /** The outcomes left after `n` attempts. */
  function Drop(outcomes: seq<bool>, n: nat): (r: seq<bool>)
    ensures forall k: nat :: OutcomeAt(r, k) == OutcomeAt(outcomes, n + k)
  {
    if n <= |outcomes| then outcomes[n..] else []
  }

  datatype DeletePlan = DeletePlan(ok: bool, attempts: nat)

  /**
   * Attempting to delete a file until an attempt succeeds or `budget`
   * attempts are spent; an attempt on a file that is absent succeeds.
   */
  function Attempts(present: bool, outcomes: seq<bool>, budget: nat): (r: DeletePlan)
    ensures r.attempts <= budget
    ensures r.ok ==> r.attempts >= 1
    ensures !r.ok ==> r.attempts == budget
  {
    if budget == 0 then DeletePlan(false, 0)
    else if !present || OutcomeAt(outcomes, 0) then DeletePlan(true, 1)
    else
      var r := Attempts(present, Drop(outcomes, 1), budget - 1);
      DeletePlan(r.ok, r.attempts + 1)
  }

  /** What deleting a merged member amounts to: nothing when deletion is disabled. */
  function PlanDelete(present: bool, deletable: bool, retryable: bool, outcomes: seq<bool>): (r: DeletePlan)
    ensures r.attempts <= MaxAttempts(retryable)
    ensures !deletable ==> r == DeletePlan(true, 0)
    ensures deletable && !present ==> r == DeletePlan(true, 1)
  {
    if !deletable then DeletePlan(true, 0) else Attempts(present, outcomes, MaxAttempts(retryable))
  }

  datatype Deleted = Deleted(disk: Disk, ok: bool)

  /** The disk after deleting `path`: the file is gone exactly when deletion is enabled and succeeded. */
  function DeleteOn(d: Disk, path: string, deletable: bool, retryable: bool): (r: Deleted)
    ensures r.ok && deletable ==> path !in r.disk.files
    ensures !(r.ok && deletable) ==> r.disk.files == d.files
    ensures r.disk.files == d.files || r.disk.files == d.files - {path}
  {
    var plan := PlanDelete(path in d.files, deletable, retryable, d.outcomes);
    Deleted(Disk(if plan.ok && deletable then d.files - {path} else d.files, Drop(d.outcomes, plan.attempts)), plan.ok)
  }

  /** When the `n`-th attempt is the first to succeed, deleting stops after it. */
  lemma {:induction false} AttemptsFirstSuccess(o: seq<bool>, budget: nat, n: nat)
    requires n < budget && OutcomeAt(o, n)
    requires forall k: nat :: k < n ==> !OutcomeAt(o, k)
    ensures Attempts(true, o, budget) == DeletePlan(true, n + 1)
  {
    if n > 0 {
      assert !OutcomeAt(o, 0);
      AttemptsFirstSuccess(Drop(o, 1), budget - 1, n - 1);
    }
  }

  /** When every attempt in the budget fails, all of them are made and deleting fails. */
  lemma {:induction false} AttemptsAllFail(o: seq<bool>, budget: nat)
    requires forall k: nat :: k < budget ==> !OutcomeAt(o, k)
    ensures Attempts(true, o, budget) == DeletePlan(false, budget)
  {
    if budget > 0 {
      assert !OutcomeAt(o, 0);
      AttemptsAllFail(Drop(o, 1), budget - 1);
    }
  }

  /**
   * Deleting a present file succeeds exactly when one of the allowed
   * attempts succeeds, after exactly as many attempts as it takes to reach
   * the first success; otherwise it fails after every allowed attempt.
   */
  lemma PlanDeleteOutcome(retryable: bool, outcomes: seq<bool>)
    ensures var r := PlanDelete(true, true, retryable, outcomes);
      && (r.ok <==> exists k: nat :: k < MaxAttempts(retryable) && OutcomeAt(outcomes, k))
      && (r.ok ==> OutcomeAt(outcomes, r.attempts - 1) &&
                   forall k: nat :: k < r.attempts - 1 ==> !OutcomeAt(outcomes, k))
      && (!r.ok ==> r.attempts == MaxAttempts(retryable))
  {
    var m := MaxAttempts(retryable);
    if n: nat :| n < m && OutcomeAt(outcomes, n) {
      var first := FirstSuccess(outcomes, n);
      AttemptsFirstSuccess(outcomes, m, first);
    } else {
      AttemptsAllFail(outcomes, m);
    }
  }

  /** The index of the first successful attempt, given that attempt `n` succeeds. */
  lemma {:induction false} FirstSuccess(o: seq<bool>, n: nat) returns (first: nat)
    requires OutcomeAt(o, n)
    ensures first <= n && OutcomeAt(o, first)
    ensures forall k: nat :: k < first ==> !OutcomeAt(o, k)
  {
    if n == 0 || forall k: nat :: k < n ==> !OutcomeAt(o, k) {
      first := n;
    } else {
      var k: nat :| k < n && OutcomeAt(o, k);
      first := FirstSuccess(o, k);
    }
  }

  /**
   * Without retrying there is at most one attempt; with retrying at most
   * four. A file whose first two attempts fail and whose third succeeds is
   * deleted; a file whose every attempt fails is reported after four.
   */
  lemma DeleteRetryScenarios(outcomes: seq<bool>)
    ensures PlanDelete(true, true, false, outcomes).attempts <= 1
    ensures PlanDelete(true, true, true, outcomes).attempts <= 4
    ensures |outcomes| >= 3 && !outcomes[0] && !outcomes[1] && outcomes[2] ==>
              PlanDelete(true, true, true, outcomes) == DeletePlan(true, 3)
    ensures (forall k :: 0 <= k < |outcomes| ==> !outcomes[k]) ==>
              PlanDelete(true, true, true, outcomes) == DeletePlan(false, 4)
  {
    if |outcomes| >= 3 && !outcomes[0] && !outcomes[1] && outcomes[2] {
      AttemptsFirstSuccess(outcomes, 4, 2);
    }
    if forall k :: 0 <= k < |outcomes| ==> !outcomes[k] {
      AttemptsAllFail(outcomes, 4);
    }
  }

  /** The disk, updated in place by the strategy's file operations. */
  class FileSystem {
    var files: map<string, seq<Byte>>
    var outcomes: seq<bool>

    constructor (files: map<string, seq<Byte>>, outcomes: seq<bool>)
      ensures this.files == files && this.outcomes == outcomes
    {
      this.files := files;
      this.outcomes := outcomes;
    }

    function State(): Disk
      reads this
    {
      Disk(files, outcomes)
    }

    /** Opens `path` for appending, creating it empty when absent; yields its previous length. */
    method OpenForAppend(path: string) returns (length: nat)
      modifies this
      ensures length == if path in old(files) then |old(files)[path]| else 0
      ensures files == old(files)[path := if path in old(files) then old(files)[path] else []]
      ensures outcomes == old(outcomes)
    {
      if path in files {
        length := |files[path]|;
      } else {
        length := 0;
        files := files[path := []];
      }
    }

    method Append(path: string, bytes: seq<Byte>)
      requires path in files
      modifies this
      ensures files == old(files)[path := old(files)[path] + bytes]
      ensures outcomes == old(outcomes)
    {
      files := files[path := files[path] + bytes];
    }

    /** One attempt to delete `path`: it succeeds when the file gets deleted or is found absent. */
    method TryDelete(path: string) returns (gone: bool)
      modifies this
      ensures gone == (path !in old(files) || OutcomeAt(old(outcomes), 0))
      ensures files == if gone then old(files) - {path} else old(files)
      ensures outcomes == Drop(old(outcomes), 1)
    {
      gone := path !in files || OutcomeAt(outcomes, 0);
      if gone {
        files := files - {path};
      }
      outcomes := Drop(outcomes, 1);
    }

    /**
     * Deletes a merged member: no attempt when deletion is disabled; one
     * attempt, and when retrying one more after each delay, stopping at the
     * first success.
     */
    method Delete(path: string, deletable: bool, retryable: bool) returns (ok: bool)
      modifies this
      ensures State() == DeleteOn(old(State()), path, deletable, retryable).disk
      ensures ok == DeleteOn(old(State()), path, deletable, retryable).ok
    {
      if !deletable {
        return true;
      }
      ghost var o := outcomes;
      var gone := TryDelete(path);
      if gone {
        return true;
      }
      if retryable {
        // Releasing lingering file handles and sleeping only affect timing.
        var delays := Delays;
        for d := 0 to |delays|
          invariant path in files && files == old(files)
          invariant outcomes == Drop(o, 1 + d)
          invariant forall k: nat :: k < 1 + d ==> !OutcomeAt(o, k)
        {
          gone := TryDelete(path);
          if gone {
            AttemptsFirstSuccess(o, MaxAttempts(retryable), 1 + d);
            return true;
          }
        }
      }
      AttemptsAllFail(o, MaxAttempts(retryable));
      return false;
    }
  }
}

=== FILE: grouping.dfy ===
/**
 * Grouping: resolved files are folded into a map from target name to a merge
 * group, which holds the group's files in encounter order and the common root
 * of their split paths.
 */
module Grouping {
  import opened Paths

  /** A file accepted for merging: its absolute path, that path split into components, and its target name. */
  datatype Resolved = Resolved(file: string, paths: seq<string>, target: string)

  /** The files merged into one target and the common root of their split paths. */
  datatype MergeGroup = MergeGroup(root: seq<string>, files: seq<string>)

  /** The longest common prefix of two sequences. */
  function Lcp<T(==)>(a: seq<T>, b: seq<T>): (r: seq<T>)
    ensures IsPrefix(r, a) && IsPrefix(r, b)
    ensures |r| == |a| || |r| == |b| || a[|r|] != b[|r|]
  {
    if |a| == 0 || |b| == 0 || a[0] != b[0] then []
    else [a[0]] + Lcp(a[1..], b[1..])
  }

  /** Being a common prefix that cannot be extended determines the longest common prefix. */
  lemma LcpUnique<T>(a: seq<T>, b: seq<T>, r: seq<T>)
    requires IsPrefix(r, a) && IsPrefix(r, b)
    requires |r| == |a| || |r| == |b| || a[|r|] != b[|r|]
    ensures r == Lcp(a, b)
  {
    var l := Lcp(a, b);
    assert |l| == |r|;
  }

  lemma LcpCommutative<T>(a: seq<T>, b: seq<T>)
    ensures Lcp(a, b) == Lcp(b, a)
  {
    LcpUnique(b, a, Lcp(a, b));
  }

  lemma LcpIdempotent<T>(a: seq<T>)
    ensures Lcp(a, a) == a
  {
    LcpUnique(a, a, a);
  }

  lemma {:induction false} LcpAssociative<T>(a: seq<T>, b: seq<T>, c: seq<T>)
    ensures Lcp(Lcp(a, b), c) == Lcp(a, Lcp(b, c))
  {
    if |a| == 0 || |b| == 0 || |c| == 0 || a[0] != b[0] || b[0] != c[0] {
    } else {
      LcpAssociative(a[1..], b[1..], c[1..]);
      var ab := Lcp(a, b);
      assert ab == [a[0]] + Lcp(a[1..], b[1..]);
      assert ab[1..] == Lcp(a[1..], b[1..]);
      var bc := Lcp(b, c);
      assert bc == [b[0]] + Lcp(b[1..], c[1..]);
      assert bc[1..] == Lcp(b[1..], c[1..]);
    }
  }

  /** The group of a single file: its whole split path is the root. */
  function Of(w: Resolved): MergeGroup
  {
    MergeGroup(w.paths, [w.file])
  }

  /** Two groups with the same target, combined. */
  function Combine(a: MergeGroup, b: MergeGroup): MergeGroup
  {
    MergeGroup(Lcp(a.root, b.root), a.files + b.files)
  }

  /**
   * Combining as the strategy does it: the root grows component by component
   * while both roots agree, and the file lists are appended.
   */
  method Merge(a: MergeGroup, b: MergeGroup) returns (g: MergeGroup)
    ensures IsPrefix(g.root, a.root) && IsPrefix(g.root, b.root)
    ensures |g.root| == |a.root| || |g.root| == |b.root| || a.root[|g.root|] != b.root[|g.root|]
    ensures g.files == a.files + b.files
    ensures g == Combine(a, b)
  {
    var aPaths, bPaths := a.root, b.root;
    var paths: seq<string> := [];
    var idx := 0;
    while true
      invariant idx <= |aPaths| && idx <= |bPaths|
      invariant aPaths[..idx] == bPaths[..idx]
      decreases |aPaths| - idx
    {
      if |aPaths| == idx || |bPaths| == idx || aPaths[idx] != bPaths[idx] {
        paths := aPaths[..idx];
        break;
      }
      assert aPaths[..idx + 1] == aPaths[..idx] + [aPaths[idx]];
      assert bPaths[..idx + 1] == bPaths[..idx] + [bPaths[idx]];
      idx := idx + 1;
    }
    var files: seq<string> := [];
    files := files + a.files;
    files := files + b.files;
    LcpUnique(aPaths, bPaths, paths);
    g := MergeGroup(paths, files);
  }

  /** Adds one resolved file to the map, as the collector's merge function does. */
  function Insert(m: map<string, MergeGroup>, w: Resolved): map<string, MergeGroup>
  {
    m[w.target := if w.target in m then Combine(m[w.target], Of(w)) else Of(w)]
  }

  /** The map from target name to group, folding the resolved files in encounter order. */
  function GroupAll(ws: seq<Resolved>): map<string, MergeGroup>
  {
    if ws == [] then map[] else Insert(GroupAll(ws[..|ws| - 1]), ws[|ws| - 1])
  }

  /** The files of the resolved entries with target `k`, in encounter order. */
  function FilesFor(ws: seq<Resolved>, k: string): seq<string>
  {
    if ws == [] then []
    else FilesFor(ws[..|ws| - 1], k) + (if ws[|ws| - 1].target == k then [ws[|ws| - 1].file] else [])
  }

  /** The split paths of the resolved entries with target `k`, in encounter order. */
  function PathsFor(ws: seq<Resolved>, k: string): seq<seq<string>>
  {
    if ws == [] then []
    else PathsFor(ws[..|ws| - 1], k) + (if ws[|ws| - 1].target == k then [ws[|ws| - 1].paths] else [])
  }

  /** The root the fold computes from paths in the given order. */
  function LcpAll(ps: seq<seq<string>>): seq<string>
    requires |ps| >= 1
  {
    if |ps| == 1 then ps[0] else Lcp(LcpAll(ps[..|ps| - 1]), ps[|ps| - 1])
  }

  /** `r` is a prefix of every path in `ps`. */
  predicate CommonPrefix(r: seq<string>, ps: seq<seq<string>>)
  {
    forall i :: 0 <= i < |ps| ==> IsPrefix(r, ps[i])
  }

  /** Every path in `ps` goes on past position `n`, all with the same component there. */
  predicate AgreeAt(ps: seq<seq<string>>, n: nat)
  {
    && (forall i :: 0 <= i < |ps| ==> |ps[i]| > n)
    && (forall i, j :: 0 <= i < |ps| && 0 <= j < |ps| && |ps[i]| > n && |ps[j]| > n ==> ps[i][n] == ps[j][n])
  }

  /** `r` is the longest common prefix of the paths in `ps`. */
  predicate Longest(r: seq<string>, ps: seq<seq<string>>)
  {
    |ps| >= 1 && CommonPrefix(r, ps) && !AgreeAt(ps, |r|)
  }

  /** Whatever the order of the paths, the fold's root is their longest common prefix. */
  lemma {:induction false} LcpAllLongest(ps: seq<seq<string>>)
    requires |ps| >= 1
    ensures Longest(LcpAll(ps), ps)
  {
    if |ps| > 1 {
      var init, p := ps[..|ps| - 1], ps[|ps| - 1];
      LcpAllLongest(init);
      var r := LcpAll(init);
      var r' := Lcp(r, p);
      assert forall i :: 0 <= i < |init| ==> init[i] == ps[i];
      forall i | 0 <= i < |ps|
        ensures IsPrefix(r', ps[i])
      {
        if i < |init| {
          assert IsPrefix(r, ps[i]);
        }
      }
      if |r'| == |r| {
        assert !AgreeAt(init, |r|);
      } else if |r'| == |p| {
        assert |ps[|ps| - 1]| == |r'|;
      } else {
        assert IsPrefix(r, ps[0]);
        assert ps[0][|r'|] == r[|r'|] != p[|r'|];
      }
    }
  }

  /** The longest common prefix depends only on which paths there are. */
  lemma LongestUnique(r1: seq<string>, r2: seq<string>, ps: seq<seq<string>>, qs: seq<seq<string>>)
    requires Longest(r1, ps) && Longest(r2, qs)
    requires forall p :: p in ps <==> p in qs
    ensures r1 == r2
  {
    if |r1| < |r2| {
      assert CommonPrefix(r2, ps) by {
        forall i | 0 <= i < |ps| ensures IsPrefix(r2, ps[i]) {
          assert ps[i] in qs;
        }
      }
      assert AgreeAt(ps, |r1|);
    } else if |r2| < |r1| {
      assert CommonPrefix(r1, qs) by {
        forall i | 0 <= i < |qs| ensures IsPrefix(r1, qs[i]) {
          assert qs[i] in ps;
        }
      }
      assert AgreeAt(qs, |r2|);
    } else {
      assert ps[0] in qs;
    }
  }

  /** The grouped targets are exactly the targets of the resolved files. */
  lemma {:induction false} GroupAllKeys(ws: seq<Resolved>)
    ensures GroupAll(ws).Keys == set w | w in ws :: w.target
  {
    if ws != [] {
      var init := ws[..|ws| - 1];
      GroupAllKeys(init);
      assert ws == init + [ws[|ws| - 1]];
    }
  }

  /**
   * Each group holds the files with its target in encounter order, and its
   * root is what folding their split paths in that order gives.
   */
  lemma {:induction false} GroupAllContents(ws: seq<Resolved>, k: string)
    requires k in GroupAll(ws)
    ensures GroupAll(ws)[k].files == FilesFor(ws, k)
    ensures |PathsFor(ws, k)| >= 1 && GroupAll(ws)[k].root == LcpAll(PathsFor(ws, k))
  {
    var init, w := ws[..|ws| - 1], ws[|ws| - 1];
    if w.target != k {
      assert k in GroupAll(init);
      GroupAllContents(init, k);
      ContentsOtherTarget(ws, k);
    } else if k in GroupAll(init) {
      GroupAllContents(init, k);
      ContentsSameTarget(ws, k);
    } else {
      PathsForEmpty(init, k);
      FilesForEmpty(init, k);
    }
  }

  /** Group `k` as the fold builds it from `ws`: the files and the root of the paths with target `k`. */
  ghost predicate Describes(ws: seq<Resolved>, k: string)
  {
    && k in GroupAll(ws)
    && GroupAll(ws)[k].files == FilesFor(ws, k)
    && |PathsFor(ws, k)| >= 1 && GroupAll(ws)[k].root == LcpAll(PathsFor(ws, k))
  }

  /** A file with another target leaves group `k` as it was. */
  lemma ContentsOtherTarget(ws: seq<Resolved>, k: string)
    requires ws != [] && ws[|ws| - 1].target != k
    requires Describes(ws[..|ws| - 1], k)
    ensures Describes(ws, k)
  {
    var init := ws[..|ws| - 1];
    var pre, files := PathsFor(init, k), FilesFor(init, k);
    assert GroupAll(ws)[k] == GroupAll(init)[k];
    assert PathsFor(ws, k) == pre by { assert pre + [] == pre; }
    assert FilesFor(ws, k) == files by { assert files + [] == files; }
  }

  /** A file with target `k` joins group `k`: one more file, and its path in the root's fold. */
  lemma ContentsSameTarget(ws: seq<Resolved>, k: string)
    requires ws != [] && ws[|ws| - 1].target == k
    requires Describes(ws[..|ws| - 1], k)
    ensures Describes(ws, k)
  {
    var init, w := ws[..|ws| - 1], ws[|ws| - 1];
    var pre := PathsFor(init, k);
    assert PathsFor(ws, k) == pre + [w.paths];
    assert (pre + [w.paths])[..|pre|] == pre;
  }

  lemma {:induction false} PathsForEmpty(ws: seq<Resolved>, k: string)
    requires k !in GroupAll(ws)
    ensures PathsFor(ws, k) == []
  {
    if ws != [] {
      PathsForEmpty(ws[..|ws| - 1], k);
    }
  }

  lemma {:induction false} FilesForEmpty(ws: seq<Resolved>, k: string)
    requires k !in GroupAll(ws)
    ensures FilesFor(ws, k) == []
  {
    if ws != [] {
      FilesForEmpty(ws[..|ws| - 1], k);
    }
  }

  /** A path is in PathsFor exactly when some entry with that target has it. */
  lemma {:induction false} PathsForMembers(ws: seq<Resolved>, k: string, p: seq<string>)
    ensures p in PathsFor(ws, k) <==> exists w :: w in ws && w.target == k && w.paths == p
  {
    if ws != [] {
      var init := ws[..|ws| - 1];
      PathsForMembers(init, k, p);
      assert ws == init + [ws[|ws| - 1]];
    }
  }

  /** A file is in FilesFor exactly when some entry with that target has it. */
  lemma {:induction false} FilesForMembers(ws: seq<Resolved>, k: string, f: string)
    ensures f in FilesFor(ws, k) <==> exists w :: w in ws && w.target == k && w.file == f
  {
    if ws != [] {
      var init := ws[..|ws| - 1];
      FilesForMembers(init, k, f);
      assert ws == init + [ws[|ws| - 1]];
    }
  }

  /**
   * After the fold, every resolved file lies in the group keyed by its
   * target, and a group holds only files resolved to its key; its root is the
   * longest common prefix of its members' split paths.
   */
  lemma GroupMembership(ws: seq<Resolved>)
    ensures forall w :: w in ws ==> w.target in GroupAll(ws) && w.file in GroupAll(ws)[w.target].files
    ensures forall k, f :: k in GroupAll(ws) && f in GroupAll(ws)[k].files ==>
              exists w :: w in ws && w.target == k && w.file == f
    ensures forall k :: k in GroupAll(ws) ==> Longest(GroupAll(ws)[k].root, PathsFor(ws, k))
  {
    GroupAllKeys(ws);
    forall w | w in ws
      ensures w.target in GroupAll(ws) && w.file in GroupAll(ws)[w.target].files
    {
      assert w.target in GroupAll(ws);
      GroupAllContents(ws, w.target);
      FilesForMembers(ws, w.target, w.file);
    }
    forall k, f | k in GroupAll(ws) && f in GroupAll(ws)[k].files
      ensures exists w :: w in ws && w.target == k && w.file == f
    {
      GroupAllContents(ws, k);
      FilesForMembers(ws, k, f);
    }
    forall k | k in GroupAll(ws)
      ensures Longest(GroupAll(ws)[k].root, PathsFor(ws, k))
    {
      GroupAllContents(ws, k);
      LcpAllLongest(PathsFor(ws, k));
    }
  }

  lemma {:induction false} FilesForAppend(a: seq<Resolved>, b: seq<Resolved>, k: string)
    ensures FilesFor(a + b, k) == FilesFor(a, k) + FilesFor(b, k)
  {
    if b != [] {
      var b' := b[..|b| - 1];
      FilesForAppend(a, b', k);
      assert (a + b)[..|a + b| - 1] == a + b';
      assert (a + b)[|a + b| - 1] == b[|b| - 1];
    } else {
      assert a + b == a;
    }
  }

  /** Removing the same element from both sides of a multiset equality. */
  lemma RemoveLast(ws: seq<Resolved>, vs: seq<Resolved>) returns (j: nat)
    requires ws != [] && multiset(ws) == multiset(vs)
    ensures j < |vs| && vs[j] == ws[|ws| - 1]
    ensures vs == vs[..j] + [ws[|ws| - 1]] + vs[j + 1..]
    ensures multiset(ws[..|ws| - 1]) == multiset(vs[..j] + vs[j + 1..])
  {
    var init, x := ws[..|ws| - 1], ws[|ws| - 1];
    assert ws == init + [x];
    assert x in multiset(vs);
    j :| 0 <= j < |vs| && vs[j] == x;
    var a, b := vs[..j], vs[j + 1..];
    assert vs == a + [x] + b;
    assert multiset(vs) == multiset(a) + multiset([x]) + multiset(b);
    assert multiset(ws) == multiset(init) + multiset([x]);
    calc {
      multiset(init);
      multiset(ws) - multiset([x]);
      multiset(vs) - multiset([x]);
      multiset(a) + multiset(b);
      multiset(a + b);
    }
  }

  /** The files of a sequence with one element taken out and put back in the middle. */
  lemma FilesForSplice(a: seq<Resolved>, x: Resolved, b: seq<Resolved>, k: string)
    ensures multiset(FilesFor(a + [x] + b, k)) == multiset(FilesFor(a + b, k)) + multiset(FilesFor([x], k))
  {
    FilesForAppend(a, b, k);
    FilesForAppend(a + [x], b, k);
    FilesForAppend(a, [x], k);
  }

  /** The multiset of a target's files depends only on the multiset of resolved entries. */
  lemma {:induction false} FilesForPermutation(ws: seq<Resolved>, vs: seq<Resolved>, k: string)
    requires multiset(ws) == multiset(vs)
    ensures multiset(FilesFor(ws, k)) == multiset(FilesFor(vs, k))
    decreases |ws|
  {
    if ws == [] {
      assert |vs| == |multiset(vs)| == 0;
    } else {
      var init, x := ws[..|ws| - 1], ws[|ws| - 1];
      var j := RemoveLast(ws, vs);
      var a, b := vs[..j], vs[j + 1..];
      FilesForPermutation(init, a + b, k);
      assert ws == init + [x];
      PermutationStep(init, x, a, b, k);
    }
  }

  /** The induction step: the last entry `x` of the first sequence sits between `a` and `b` in the second. */
  lemma PermutationStep(init: seq<Resolved>, x: Resolved, a: seq<Resolved>, b: seq<Resolved>, k: string)
    requires multiset(FilesFor(init, k)) == multiset(FilesFor(a + b, k))
    ensures multiset(FilesFor(init + [x], k)) == multiset(FilesFor(a + [x] + b, k))
  {
    FilesForSplice(a, x, b, k);
    FilesForAppend(init, [x], k);
    MultisetOfParts(FilesFor(init + [x], k), FilesFor(init, k), FilesFor([x], k), FilesFor(a + b, k), FilesFor(a + [x] + b, k));
  }

  lemma MultisetOfParts(whole: seq<string>, front: seq<string>, last: seq<string>, same: seq<string>, other: seq<string>)
    requires whole == front + last
    requires multiset(front) == multiset(same)
    requires multiset(other) == multiset(same) + multiset(last)
    ensures multiset(whole) == multiset(other)
  {
  }

  lemma SameElements(ws: seq<Resolved>, vs: seq<Resolved>)
    requires multiset(ws) == multiset(vs)
    ensures forall w :: w in ws <==> w in vs
  {
    forall w ensures w in ws <==> w in vs {
      assert w in ws <==> w in multiset(ws);
      assert w in vs <==> w in multiset(vs);
    }
  }

  /**
   * Folding the same resolved entries in any order gives the same targets,
   * and for each target the same root and the same multiset of files.
   */
  lemma GroupAllOrderIndependent(ws: seq<Resolved>, vs: seq<Resolved>)
    requires multiset(ws) == multiset(vs)
    ensures GroupAll(ws).Keys == GroupAll(vs).Keys
    ensures forall k :: k in GroupAll(ws) ==>
              GroupAll(ws)[k].root == GroupAll(vs)[k].root &&
              multiset(GroupAll(ws)[k].files) == multiset(GroupAll(vs)[k].files)
  {
    GroupAllKeys(ws);
    GroupAllKeys(vs);
    SameElements(ws, vs);
    forall k | k in GroupAll(ws)
      ensures GroupAll(ws)[k].root == GroupAll(vs)[k].root
      ensures multiset(GroupAll(ws)[k].files) == multiset(GroupAll(vs)[k].files)
    {
      SameGroupAt(ws, vs, k);
    }
  }

  lemma SameGroupAt(ws: seq<Resolved>, vs: seq<Resolved>, k: string)
    requires multiset(ws) == multiset(vs)
    requires k in GroupAll(ws) && k in GroupAll(vs)
    ensures GroupAll(ws)[k].root == GroupAll(vs)[k].root
    ensures multiset(GroupAll(ws)[k].files) == multiset(GroupAll(vs)[k].files)
  {
    SameElements(ws, vs);
    forall p ensures p in PathsFor(ws, k) <==> p in PathsFor(vs, k) {
      PathsForMembers(ws, k, p);
      PathsForMembers(vs, k, p);
    }
    GroupAllContents(ws, k);
    GroupAllContents(vs, k);
    LcpAllLongest(PathsFor(ws, k));
    LcpAllLongest(PathsFor(vs, k));
    LongestUnique(GroupAll(ws)[k].root, GroupAll(vs)[k].root, PathsFor(ws, k), PathsFor(vs, k));
    FilesForPermutation(ws, vs, k);
  }

  /** A group of one file keeps that file's whole split path, file name included, as its root. */
  lemma SingletonRoot(w: Resolved)
    ensures GroupAll([w]) == map[w.target := MergeGroup(w.paths, [w.file])]
  {
    assert [w][..0] == [];
  }

  /** Every resolved file's split path starts with the root of its group. */
  lemma RootPrefixOfMembers(ws: seq<Resolved>)
    ensures forall w :: w in ws ==> w.target in GroupAll(ws) && IsPrefix(GroupAll(ws)[w.target].root, w.paths)
  {
    GroupMembership(ws);
    forall w | w in ws
      ensures IsPrefix(GroupAll(ws)[w.target].root, w.paths)
    {
      PathsForMembers(ws, w.target, w.paths);
      var ps := PathsFor(ws, w.target);
      var i :| 0 <= i < |ps| && ps[i] == w.paths;
    }
  }
}

=== FILE: paths.dfy ===
/**
 * Path strings as the merge strategy handles them: an absolute path is split
 * on the platform separator into its components, a list of components is
 * joined back with the separator, and a configured directory is resolved
 * against the build directory.
 */
module Paths {

  /** Every piece of `s` between separators, empty pieces included. */
  function Pieces(s: string, sep: char): (r: seq<string>)
    ensures |r| >= 1
    ensures forall i :: 0 <= i < |r| ==> sep !in r[i]
  {
    if s == [] then [""]
    else
      var rest := Pieces(s[1..], sep);
      if s[0] == sep then [""] + rest
      else [[s[0]] + rest[0]] + rest[1..]
  }

  /** Joins components with the separator between consecutive ones. */
  function Join(parts: seq<string>, sep: char): string
  {
    if parts == [] then ""
    else if |parts| == 1 then parts[0]
    else parts[0] + [sep] + Join(parts[1..], sep)
  }

  /** Drops the empty strings at the end of a list of pieces. */
  function DropTrailingEmpty(ps: seq<string>): (r: seq<string>)
    ensures IsPrefix(r, ps)
    ensures r == [] || r[|r| - 1] != ""
    ensures forall i :: |r| <= i < |ps| ==> ps[i] == ""
  {
    if ps == [] then []
    else if ps[|ps| - 1] == "" then DropTrailingEmpty(ps[..|ps| - 1])
    else ps
  }

  /**
   * The components of a path as a string split on the separator yields them:
   * the input itself when it is empty, otherwise every piece except the empty
   * pieces at the end. A leading separator yields a leading empty component.
   */
  function Split(s: string, sep: char): seq<string>
  {
    if s == [] then [""] else DropTrailingEmpty(Pieces(s, sep))
  }

  /** The bare name of a file: what follows the last separator. */
  function FileName(path: string, sep: char): (r: string)
    ensures sep !in r
  {
    var ps := Pieces(path, sep);
    ps[|ps| - 1]
  }

  predicate IsPrefix<T(==)>(p: seq<T>, s: seq<T>)
  {
    |p| <= |s| && p == s[..|p|]
  }

  predicate EndsWith<T(==)>(s: seq<T>, suffix: seq<T>)
  {
    |suffix| <= |s| && s[|s| - |suffix|..] == suffix
  }

  /** A path is absolute when it starts at the root, i.e. with the separator. */
  predicate IsAbsolute(path: string, sep: char)
  {
    |path| > 0 && path[0] == sep
  }

  /** `dir` is non-empty and ends with the separator. */
  predicate EndsWithSep(dir: string, sep: char)
  {
    |dir| > 0 && dir[|dir| - 1] == sep
  }

  /**
   * `r` names `name` directly inside `dir`: `dir`, then one separator unless
   * `dir` already ends with one, then `name`.
   */
  predicate Inside(r: string, dir: string, name: string, sep: char)
  {
    && IsPrefix(dir, r) && EndsWith(r, name)
    && |r| == |dir| + |name| + (if EndsWithSep(dir, sep) then 0 else 1)
    && |r| > |name| && r[|r| - |name| - 1] == sep
  }

  /**
   * The path of `name` inside directory `dir`. The name is a bare file name
   * (no separator in it); a name that starts with a separator would keep it,
   * where `java.io.File` folds the doubled separator.
   */
  function Child(dir: string, name: string, sep: char): (r: string)
    ensures Inside(r, dir, name, sep)
    ensures IsAbsolute(dir, sep) ==> IsAbsolute(r, sep)
  {
    if EndsWithSep(dir, sep) then dir + name else dir + [sep] + name
  }

  /**
   * An absolute `child` is kept as it is; a relative one is placed under
   * `parent`. The child is never empty here: an empty child gives `parent`
   * plus a separator, where `java.io.File` gives `parent` alone.
   */
  function ResolveDir(parent: string, child: string, sep: char): (r: string)
    ensures IsAbsolute(child, sep) ==> r == child
    ensures !IsAbsolute(child, sep) ==> Inside(r, parent, child, sep)
    ensures IsAbsolute(parent, sep) || IsAbsolute(child, sep) ==> IsAbsolute(r, sep)
  {
    if IsAbsolute(child, sep) then child else Child(parent, child, sep)
  }

  /** As ResolveDir, with an empty `child` replaced by `defChild`. */
  function ResolveDirOrDefault(parent: string, child: string, defChild: string, sep: char): (r: string)
    ensures child != "" && IsAbsolute(child, sep) ==> r == child
    ensures child != "" && !IsAbsolute(child, sep) ==> Inside(r, parent, child, sep)
    ensures child == "" && IsAbsolute(defChild, sep) ==> r == defChild
    ensures child == "" && !IsAbsolute(defChild, sep) ==> Inside(r, parent, defChild, sep)
  {
    ResolveDir(parent, if child != "" then child else defChild, sep)
  }

  /** The pieces of two strings joined by a separator are the pieces of each, in order. */
  lemma {:induction false} PiecesConcat(a: string, b: string, sep: char)
    ensures Pieces(a + [sep] + b, sep) == Pieces(a, sep) + Pieces(b, sep)
  {
    if a != [] {
      var s := a + [sep] + b;
      assert s[0] == a[0] && s[1..] == a[1..] + [sep] + b;
      PiecesConcat(a[1..], b, sep);
    } else {
      assert a + [sep] + b == [sep] + b;
      assert ([sep] + b)[1..] == b;
    }
  }

  /**
   * The components of a child path are those of its directory followed by
   * those of the name; a trailing separator of the directory adds no empty
   * component.
   */
  lemma ChildComponents(dir: string, name: string, sep: char)
    ensures var ds := Pieces(dir, sep);
      !EndsWithSep(dir, sep) ==> Pieces(Child(dir, name, sep), sep) == ds + Pieces(name, sep)
    ensures var ds := Pieces(dir, sep);
      EndsWithSep(dir, sep) ==> Pieces(Child(dir, name, sep), sep) == ds[..|ds| - 1] + Pieces(name, sep)
  {
    if EndsWithSep(dir, sep) {
      var d := dir[..|dir| - 1];
      assert dir == d + [sep] + "";
      PiecesConcat(d, "", sep);
      assert dir + name == d + [sep] + name;
      PiecesConcat(d, name, sep);
      var ds := Pieces(dir, sep);
      assert ds[..|ds| - 1] == Pieces(d, sep);
    } else {
      PiecesConcat(dir, name, sep);
    }
  }

  /** Joining the pieces of a string gives the string back. */
  lemma {:induction false} JoinPieces(s: string, sep: char)
    ensures Join(Pieces(s, sep), sep) == s
  {
    if s != [] {
      var rest := Pieces(s[1..], sep);
      JoinPieces(s[1..], sep);
      if s[0] == sep {
        assert Pieces(s, sep) == [""] + rest;
        assert Join(Pieces(s, sep), sep) == "" + [sep] + Join(rest, sep);
        assert s == [s[0]] + s[1..];
      } else {
        var ps := [[s[0]] + rest[0]] + rest[1..];
        assert Pieces(s, sep) == ps;
        if |rest| == 1 {
          assert Join(ps, sep) == [s[0]] + rest[0];
          assert s == [s[0]] + s[1..];
        } else {
          assert ps[1..] == rest[1..];
          assert Join(rest, sep) == rest[0] + [sep] + Join(rest[1..], sep);
          assert Join(ps, sep) == [s[0]] + rest[0] + [sep] + Join(rest[1..], sep);
          assert s == [s[0]] + s[1..];
        }
      }
    }
  }

  /** Splitting a join of separator-free components gives the components back. */
  lemma {:induction false} PiecesJoin(parts: seq<string>, sep: char)
    requires |parts| >= 1
    requires forall i :: 0 <= i < |parts| ==> sep !in parts[i]
    ensures Pieces(Join(parts, sep), sep) == parts
  {
    if |parts| == 1 {
      PiecesNoSep(parts[0], sep);
    } else {
      PiecesJoin(parts[1..], sep);
      PiecesAppend(parts[0], Join(parts[1..], sep), sep);
      PiecesNoSep(parts[0], sep);
    }
  }

  /** A string without separators is a single piece. */
  lemma {:induction false} PiecesNoSep(s: string, sep: char)
    requires sep !in s
    ensures Pieces(s, sep) == [s]
  {
    if s != [] {
      assert sep !in s[1..];
      PiecesNoSep(s[1..], sep);
      assert s == [s[0]] + s[1..];
    }
  }

  /** A separator-free head followed by a separator starts a new piece. */
  lemma {:induction false} PiecesAppend(head: string, tail: string, sep: char)
    requires sep !in head
    ensures Pieces(head + [sep] + tail, sep) == [head] + Pieces(tail, sep)
  {
    if head == [] {
      assert head + [sep] + tail == [sep] + tail;
      assert ([sep] + tail)[1..] == tail;
    } else {
      var s := head + [sep] + tail;
      assert s[0] == head[0] && s[1..] == head[1..] + [sep] + tail;
      assert sep !in head[1..];
      PiecesAppend(head[1..], tail, sep);
      assert [head[0]] + head[1..] == head;
    }
  }

  /** The last piece is empty exactly when the string ends with a separator or is empty. */
  lemma {:induction false} LastPieceEmpty(s: string, sep: char)
    ensures var ps := Pieces(s, sep); ps[|ps| - 1] == "" <==> (s == [] || s[|s| - 1] == sep)
  {
    if s != [] {
      LastPieceEmpty(s[1..], sep);
      var rest := Pieces(s[1..], sep);
      if s[0] != sep && |rest| == 1 {
        assert Pieces(s, sep) == [[s[0]] + rest[0]];
        if s[1..] == [] {
          assert s == [s[0]];
        } else {
          assert s[|s| - 1] == s[1..][|s[1..]| - 1];
        }
      } else if s[1..] != [] {
        assert s[|s| - 1] == s[1..][|s[1..]| - 1];
      }
    }
  }

  /** A non-empty path that does not end with the separator splits into exactly its pieces. */
  lemma SplitIsPieces(s: string, sep: char)
    requires s != [] && s[|s| - 1] != sep
    ensures Split(s, sep) == Pieces(s, sep)
  {
    LastPieceEmpty(s, sep);
  }

  /** Joining the split components of such a path gives the path back. */
  lemma JoinSplit(s: string, sep: char)
    requires s != [] && s[|s| - 1] != sep
    ensures Join(Split(s, sep), sep) == s
  {
    SplitIsPieces(s, sep);
    JoinPieces(s, sep);
  }

  /** The file name is the last component of the split path. */
  lemma FileNameIsLastComponent(s: string, sep: char)
    requires s != [] && s[|s| - 1] != sep
    ensures var cs := Split(s, sep); |cs| >= 1 && cs[|cs| - 1] == FileName(s, sep)
  {
    SplitIsPieces(s, sep);
  }

  /** Joining a non-empty prefix of a component list gives a prefix of the joined list. */
  lemma {:induction false} JoinPrefix(p: seq<string>, parts: seq<string>, sep: char)
    requires IsPrefix(p, parts)
    ensures IsPrefix(Join(p, sep), Join(parts, sep))
  {
    if |p| >= 2 {
      JoinPrefix(p[1..], parts[1..], sep);
      var a, b := Join(p[1..], sep), Join(parts[1..], sep);
      assert Join(parts, sep) == p[0] + [sep] + b;
      assert b[..|a|] == a;
      assert (p[0] + [sep] + b)[..|p[0]| + 1 + |a|] == p[0] + [sep] + a;
    } else if |p| == 1 {
      assert parts[0] == p[0];
      if |parts| > 1 {
        assert Join(parts, sep) == p[0] + ([sep] + Join(parts[1..], sep));
      }
    }
  }

  /**
   * A prefix of a path's components, joined, is a prefix of the path itself:
   * the directory it names contains the path.
   */
  lemma JoinedComponentsPrefix(p: seq<string>, s: string, sep: char)
    requires IsPrefix(p, Split(s, sep))
    ensures IsPrefix(Join(p, sep), s)
  {
    if s != [] {
      JoinPrefix(p, Pieces(s, sep), sep);
      JoinPieces(s, sep);
    } else {
      JoinPrefix(p, [""], sep);
    }
  }
}

=== FILE: strategy.dfy ===
/**
 * The default merge strategy: the files below the origin directory are
 * filtered, matched against the file name pattern, resolved to their
 * targets and grouped by target; each group is then appended to its target
 * file in its output directory and its members are deleted.
 */
module Strategy {
  import opened Wrappers
  import opened Errors
  import opened Paths
  import opened FileSystem
  import opened Target
  import opened Grouping
  import opened Writer

  /** The origin directory, below the build directory, when none is configured. */
  const DefaultOriginDir := "classes"

  /** The output directory, below the build directory, when neither a merge directory nor common roots are used. */
  const DefaultMergeDir := "generated-resources"

  /** The strategy's configuration, as set from the build. */
  datatype Config = Config(
    filesRegex: string,
    /** Bare file names never merged; an unset list is the empty set. */
    excludeFiles: set<string>,
    originDir: string,
    mergeDir: string,
    mergeFile: string,
    newlineCount: int,
    commentFormat: string,
    deleteIfResourceBeenMerged: bool,
    retryIfDeleteFailed: bool,
    useCommonRootDirByGroupIfOutputDirEmpty: bool)

  /** One entry of the recursive listing of the origin directory. */
  datatype Entry = Entry(path: string, isDirectory: bool)

  /** What the strategy takes from its surroundings. */
  datatype Environment = Environment(
    /** The evaluated, absolute build directory. */
    buildDir: string,
    sep: char,
    /** The platform line separator, encoded. */
    newline: seq<Byte>,
    /** The compiled file name pattern, applied to a bare file name. */
    matcher: string -> MatchResult,
    /** The comment format applied to a bare file name, encoded. */
    format: (string, string) -> seq<Byte>,
    /** The recursive listing of a directory, in traversal order. */
    walk: string -> seq<Entry>)

  /** The directory whose files are merged. */
  function OriginDir(cfg: Config, env: Environment): string
  {
    ResolveDirOrDefault(env.buildDir, cfg.originDir, DefaultOriginDir, env.sep)
  }

  function Listing(cfg: Config, env: Environment): seq<Entry>
  {
    env.walk(OriginDir(cfg, env))
  }

  /** An entry passes the scan filter when it is not a directory and its bare name is not excluded. */
  predicate Kept(e: Entry, exclude: set<string>, sep: char)
  {
    !e.isDirectory && FileName(e.path, sep) !in exclude
  }

  /** The paths that pass the scan filter, in listing order. */
  function Scan(listing: seq<Entry>, exclude: set<string>, sep: char): (r: seq<string>)
    ensures |r| <= |listing|
    ensures forall p :: p in r <==> exists e :: e in listing && Kept(e, exclude, sep) && e.path == p
  {
    if listing == [] then []
    else
      var init, e := listing[..|listing| - 1], listing[|listing| - 1];
      assert listing == init + [e];
      Scan(init, exclude, sep) + (if Kept(e, exclude, sep) then [e.path] else [])
  }

  /** How the file at `path` is resolved: by matching its bare name. */
  function Wrap(cfg: Config, env: Environment, path: string): Resolution
  {
    Resolve(env.matcher(FileName(path, env.sep)), cfg.mergeFile, path)
  }

  /** The scanned files resolved in order, stopping at the first rejected one; skipped files are dropped. */
  function ResolveAll(cfg: Config, env: Environment, files: seq<string>): Result<seq<Resolved>, MergeError>
  {
    if files == [] then Success([])
    else
      var p := files[|files| - 1];
      match ResolveAll(cfg, env, files[..|files| - 1])
      case Failure(e) => Failure(e)
      case Success(ws) =>
        match Wrap(cfg, env, p)
        case Skip => Success(ws)
        case Target(name) => Success(ws + [Resolved(p, Split(p, env.sep), name)])
        case Rejected(e) => Failure(e)
  }

  /** The groups of a run, keyed by target name, or the configuration error that stops it. */
  function Collect(cfg: Config, env: Environment, listing: seq<Entry>): Result<map<string, MergeGroup>, MergeError>
  {
    if IsBlank(cfg.filesRegex) then Failure(EmptyFilesRegex)
    else
      match ResolveAll(cfg, env, Scan(listing, cfg.excludeFiles, env.sep))
      case Failure(e) => Failure(e)
      case Success(ws) => Success(GroupAll(ws))
  }

  /** The directory a group with common root `root` is written to. */
  function OutputDir(cfg: Config, env: Environment, root: seq<string>): string
  {
    if cfg.mergeDir != "" then ResolveDir(env.buildDir, cfg.mergeDir, env.sep)
    else if cfg.useCommonRootDirByGroupIfOutputDirEmpty then Join(root, env.sep)
    else ResolveDir(env.buildDir, DefaultMergeDir, env.sep)
  }

  function SettingsOf(cfg: Config, env: Environment): Settings
  {
    Settings(env.sep, env.newline, cfg.newlineCount, cfg.commentFormat, env.format,
             cfg.deleteIfResourceBeenMerged, cfg.retryIfDeleteFailed)
  }

  /** Writing group `g` with target name `k`. */
  function WriteGroupOf(d: Disk, cfg: Config, env: Environment, k: string, g: MergeGroup): Outcome
  {
    WriteGroup(d, SettingsOf(cfg, env), OutputDir(cfg, env, g.root), k, g.files)
  }

  /** The groups written in the given order of their keys, stopping at the first failure. */
  function WriteAll(d: Disk, cfg: Config, env: Environment, groups: map<string, MergeGroup>, order: seq<string>): Outcome
    requires forall k :: k in order ==> k in groups
  {
    if order == [] then Outcome(d, None)
    else
      var o := WriteAll(d, cfg, env, groups, order[..|order| - 1]);
      var k := order[|order| - 1];
      if o.error.Some? then o else WriteGroupOf(o.disk, cfg, env, k, groups[k])
  }

  /**
   * Filters, resolves and groups the listing in one pass, as the stream over
   * the listing does; the first rejected file stops the pass.
   */
  method GroupListing(cfg: Config, env: Environment, listing: seq<Entry>) returns (r: Result<map<string, MergeGroup>, MergeError>)
    requires !IsBlank(cfg.filesRegex)
    ensures r == Collect(cfg, env, listing)
  {
    var groups: map<string, MergeGroup> := map[];
    ghost var files: seq<string> := [];
    ghost var ws: seq<Resolved> := [];
    for i := 0 to |listing|
      invariant files == Scan(listing[..i], cfg.excludeFiles, env.sep)
      invariant ResolveAll(cfg, env, files) == Success(ws)
      invariant groups == GroupAll(ws)
    {
      var e := listing[i];
      ScanStep(listing, i, cfg.excludeFiles, env.sep);
      if Kept(e, cfg.excludeFiles, env.sep) {
        ResolveStep(cfg, env, files, ws, e.path);
        files := files + [e.path];
        var res := ResolveTarget(env.matcher(FileName(e.path, env.sep)), cfg.mergeFile, e.path);
        if res.Rejected? {
          RejectionStops(cfg, env, listing, i + 1, files);
          return Failure(res.error);
        } else if res.Target? {
          var w := Resolved(e.path, Split(e.path, env.sep), res.name);
          GroupAllStep(ws, w);
          ws := ws + [w];
          groups := AddToGroups(groups, w);
        }
      }
    }
    assert listing[..|listing|] == listing;
    return Success(groups);
  }

  /**
   * Writes every group, in an order the method chooses as iterating a hash
   * map does, and returns that order. The disk and the error are those of
   * writing the groups in that order; every group is visited unless a write
   * fails, and then the failing group is the last one visited.
   */
  method WriteGroups(fs: FileSystem, cfg: Config, env: Environment, groups: map<string, MergeGroup>)
      returns (err: Option<MergeError>, order: seq<string>)
    modifies fs
    ensures Distinct(order)
    ensures forall k :: k in order ==> k in groups
    ensures Outcome(fs.State(), err) == WriteAll(old(fs.State()), cfg, env, groups, order)
    ensures err.None? ==> forall k :: k in groups ==> k in order
    ensures err.Some? ==> order != [] && WriteAll(old(fs.State()), cfg, env, groups, order[..|order| - 1]).error.None?
  {
    var remaining := groups.Keys;
    order := [];
    while remaining != {}
      invariant remaining <= groups.Keys
      invariant forall k :: k in order ==> k in groups && k !in remaining
      invariant forall k :: k in groups ==> k in remaining || k in order
      invariant Distinct(order)
      invariant Outcome(fs.State(), None) == WriteAll(old(fs.State()), cfg, env, groups, order)
      decreases remaining
    {
      var k :| k in remaining;
      var g := groups[k];
      ghost var before := fs.State();
      var e := WriteGroupTo(fs, SettingsOf(cfg, env), OutputDir(cfg, env, g.root), k, g.files);
      WriteAllStep(old(fs.State()), cfg, env, groups, order, k, before);
      order := order + [k];
      remaining := remaining - {k};
      if e.Some? {
        return e, order;
      }
    }
    return None, order;
  }

  /**
   * One run of the strategy: an empty pattern or a rejected file stops it
   * before anything is written; otherwise the groups are written as
   * WriteGroups describes.
   */
  method Merge(fs: FileSystem, cfg: Config, env: Environment) returns (err: Option<MergeError>, order: seq<string>)
    modifies fs
    ensures var c := Collect(cfg, env, Listing(cfg, env));
      c.Failure? ==> err == Some(c.error) && order == [] && fs.State() == old(fs.State())
    ensures var c := Collect(cfg, env, Listing(cfg, env));
      c.Success? ==>
        && Distinct(order)
        && (forall k :: k in order ==> k in c.value)
        && Outcome(fs.State(), err) == WriteAll(old(fs.State()), cfg, env, c.value, order)
        && (err.None? ==> forall k :: k in c.value ==> k in order)
        && (err.Some? ==> order != [] && WriteAll(old(fs.State()), cfg, env, c.value, order[..|order| - 1]).error.None?)
  {
    if IsBlank(cfg.filesRegex) {
      return Some(EmptyFilesRegex), [];
    }
    var listing := env.walk(OriginDir(cfg, env));
    var collected := GroupListing(cfg, env, listing);
    if collected.Failure? {
      return Some(collected.error), [];
    }
    err, order := WriteGroups(fs, cfg, env, collected.value);
  }

  lemma WriteAllStep(d: Disk, cfg: Config, env: Environment, groups: map<string, MergeGroup>, order: seq<string>,
                     k: string, before: Disk)
    requires forall q :: q in order ==> q in groups
    requires k in groups
    requires WriteAll(d, cfg, env, groups, order) == Outcome(before, None)
    ensures forall q :: q in order + [k] ==> q in groups
    ensures WriteAll(d, cfg, env, groups, order + [k]) == WriteGroupOf(before, cfg, env, k, groups[k])
  {
    assert (order + [k])[..|order|] == order;
  }

  /** Adds one resolved file to the groups, combining it into the group of its target if there is one. */
  method AddToGroups(groups: map<string, MergeGroup>, w: Resolved) returns (r: map<string, MergeGroup>)
    ensures r == Insert(groups, w)
  {
    if w.target in groups {
      var g := Grouping.Merge(groups[w.target], Of(w));
      r := groups[w.target := g];
    } else {
      r := groups[w.target := Of(w)];
    }
  }

  /** A rejection among the first `i` entries is the outcome of collecting the whole listing. */
  lemma RejectionStops(cfg: Config, env: Environment, listing: seq<Entry>, i: nat, files: seq<string>)
    requires !IsBlank(cfg.filesRegex) && i <= |listing|
    requires files == Scan(listing[..i], cfg.excludeFiles, env.sep)
    requires ResolveAll(cfg, env, files).Failure?
    ensures Collect(cfg, env, listing) == Failure(ResolveAll(cfg, env, files).error)
  {
    ScanRest(listing, i, cfg.excludeFiles, env.sep);
    ResolveAllStops(cfg, env, files, Scan(listing[i..], cfg.excludeFiles, env.sep));
  }

  lemma ScanStep(listing: seq<Entry>, i: nat, exclude: set<string>, sep: char)
    requires i < |listing|
    ensures Scan(listing[..i + 1], exclude, sep) ==
              Scan(listing[..i], exclude, sep) + (if Kept(listing[i], exclude, sep) then [listing[i].path] else [])
  {
    assert listing[..i + 1][..i] == listing[..i];
  }

  lemma ResolveStep(cfg: Config, env: Environment, files: seq<string>, ws: seq<Resolved>, p: string)
    requires ResolveAll(cfg, env, files) == Success(ws)
    ensures Wrap(cfg, env, p).Skip? ==> ResolveAll(cfg, env, files + [p]) == Success(ws)
    ensures Wrap(cfg, env, p).Target? ==>
              ResolveAll(cfg, env, files + [p]) == Success(ws + [Resolved(p, Split(p, env.sep), Wrap(cfg, env, p).name)])
    ensures Wrap(cfg, env, p).Rejected? ==> ResolveAll(cfg, env, files + [p]) == Failure(Wrap(cfg, env, p).error)
  {
    assert (files + [p])[..|files|] == files;
  }

  lemma GroupAllStep(ws: seq<Resolved>, w: Resolved)
    ensures GroupAll(ws + [w]) == Insert(GroupAll(ws), w)
  {
    assert (ws + [w])[..|ws|] == ws;
  }

  /** Scanning a listing in two parts. */
  lemma {:induction false} ScanAppend(a: seq<Entry>, b: seq<Entry>, exclude: set<string>, sep: char)
    ensures Scan(a + b, exclude, sep) == Scan(a, exclude, sep) + Scan(b, exclude, sep)
  {
    if b != [] {
      var init, e := b[..|b| - 1], b[|b| - 1];
      ScanAppend(a, init, exclude, sep);
      assert (a + b)[..|a + b| - 1] == a + init;
      assert (a + b)[|a + b| - 1] == e;
    } else {
      assert a + b == a;
    }
  }

  lemma ScanRest(listing: seq<Entry>, i: nat, exclude: set<string>, sep: char)
    requires i <= |listing|
    ensures Scan(listing, exclude, sep) == Scan(listing[..i], exclude, sep) + Scan(listing[i..], exclude, sep)
  {
    assert listing == listing[..i] + listing[i..];
    ScanAppend(listing[..i], listing[i..], exclude, sep);
  }

  /** Once a file is rejected, the files after it change nothing: the run stops with that error. */
  lemma {:induction false} ResolveAllStops(cfg: Config, env: Environment, a: seq<string>, b: seq<string>)
    requires ResolveAll(cfg, env, a).Failure?
    ensures ResolveAll(cfg, env, a + b) == ResolveAll(cfg, env, a)
  {
    if b == [] {
      assert a + b == a;
    } else {
      ResolveAllStops(cfg, env, a, b[..|b| - 1]);
      assert (a + b)[..|a + b| - 1] == a + b[..|b| - 1];
    }
  }

  /** The files resolve without error exactly when none of them is rejected. */
  lemma {:induction false} ResolveAllSucceeds(cfg: Config, env: Environment, files: seq<string>)
    ensures ResolveAll(cfg, env, files).Success? <==> forall p :: p in files ==> !Wrap(cfg, env, p).Rejected?
  {
    if files != [] {
      var init, p := files[..|files| - 1], files[|files| - 1];
      ResolveAllSucceeds(cfg, env, init);
      assert files == init + [p];
    }
  }

  /** When resolution fails, the error is that of the first rejected file in listing order. */
  lemma {:induction false} ResolveAllFirstRejected(cfg: Config, env: Environment, files: seq<string>)
    ensures ResolveAll(cfg, env, files).Failure? ==>
              exists i :: 0 <= i < |files| && Wrap(cfg, env, files[i]) == Rejected(ResolveAll(cfg, env, files).error) &&
                forall j :: 0 <= j < i ==> !Wrap(cfg, env, files[j]).Rejected?
  {
    if files != [] {
      var init, p := files[..|files| - 1], files[|files| - 1];
      ResolveAllSucceeds(cfg, env, init);
      ResolveAllFirstRejected(cfg, env, init);
      assert files == init + [p];
      if ResolveAll(cfg, env, init).Failure? {
        var i :| 0 <= i < |init| && Wrap(cfg, env, init[i]) == Rejected(ResolveAll(cfg, env, init).error) &&
                 forall j :: 0 <= j < i ==> !Wrap(cfg, env, init[j]).Rejected?;
        assert files[i] == init[i];
      } else if Wrap(cfg, env, p).Rejected? {
        assert forall j :: 0 <= j < |init| ==> files[j] == init[j] && init[j] in init;
      }
    }
  }

  /**
   * A successful resolution holds, for each listed file that matched, one
   * entry carrying its split path and its target, and nothing else.
   */
  lemma {:induction false} ResolveAllEntries(cfg: Config, env: Environment, files: seq<string>)
    requires ResolveAll(cfg, env, files).Success?
    ensures forall w :: w in ResolveAll(cfg, env, files).value ==>
              w.file in files && w.paths == Split(w.file, env.sep) && Wrap(cfg, env, w.file) == Target(w.target)
    ensures forall p :: p in files && Wrap(cfg, env, p).Target? ==>
              Resolved(p, Split(p, env.sep), Wrap(cfg, env, p).name) in ResolveAll(cfg, env, files).value
  {
    if files != [] {
      var init, p := files[..|files| - 1], files[|files| - 1];
      ResolveAllEntries(cfg, env, init);
      assert files == init + [p];
    }
  }

  /**
   * After a successful collection, a group holds only files that passed the
   * scan filter and resolved to its key, so a dropped file is in no group
   * and a file is in at most one; every kept file that resolved to a target
   * is in the group of that target.
   */
  lemma CollectGroups(cfg: Config, env: Environment, listing: seq<Entry>)
    requires Collect(cfg, env, listing).Success?
    ensures var groups := Collect(cfg, env, listing).value;
      forall k, f :: k in groups && f in groups[k].files ==>
        && (exists e :: e in listing && Kept(e, cfg.excludeFiles, env.sep) && e.path == f)
        && Wrap(cfg, env, f) == Target(k)
    ensures var groups := Collect(cfg, env, listing).value;
      forall e :: e in listing && Kept(e, cfg.excludeFiles, env.sep) && Wrap(cfg, env, e.path).Target? ==>
        Wrap(cfg, env, e.path).name in groups && e.path in groups[Wrap(cfg, env, e.path).name].files
  {
    var files := Scan(listing, cfg.excludeFiles, env.sep);
    var ws := ResolveAll(cfg, env, files).value;
    ResolveAllEntries(cfg, env, files);
    GroupMembership(ws);
  }

  /**
   * The configuration errors: an empty pattern, and otherwise a kept file
   * whose match gives no target; in either case no group is produced.
   */
  lemma CollectErrors(cfg: Config, env: Environment, listing: seq<Entry>)
    ensures Collect(cfg, env, listing) == Failure(EmptyFilesRegex) <==> IsBlank(cfg.filesRegex)
    ensures !IsBlank(cfg.filesRegex) ==>
              (Collect(cfg, env, listing).Failure? <==>
                 exists e :: e in listing && Kept(e, cfg.excludeFiles, env.sep) && Wrap(cfg, env, e.path).Rejected?)
    ensures !IsBlank(cfg.filesRegex) && Collect(cfg, env, listing).Failure? ==>
              exists e :: e in listing && Kept(e, cfg.excludeFiles, env.sep) &&
                Wrap(cfg, env, e.path) == Rejected(Collect(cfg, env, listing).error)
  {
    var files := Scan(listing, cfg.excludeFiles, env.sep);
    ResolveAllSucceeds(cfg, env, files);
    ResolveAllFirstRejected(cfg, env, files);
    if !IsBlank(cfg.filesRegex) && ResolveAll(cfg, env, files).Failure? {
      var i :| 0 <= i < |files| && Wrap(cfg, env, files[i]) == Rejected(ResolveAll(cfg, env, files).error) &&
               forall j :: 0 <= j < i ==> !Wrap(cfg, env, files[j]).Rejected?;
      assert files[i] in files;
    }
  }

  /**
   * A run over a listing in which no kept file matches the pattern has no
   * groups, and writing them leaves the disk as it was, with no error.
   */
  lemma NoMatchNoGroups(cfg: Config, env: Environment, listing: seq<Entry>)
    requires !IsBlank(cfg.filesRegex)
    requires forall e :: e in listing && Kept(e, cfg.excludeFiles, env.sep) ==> env.matcher(FileName(e.path, env.sep)).None?
    ensures Collect(cfg, env, listing) == Success(map[])
    ensures forall d: Disk, order: seq<string> | forall k :: k in order ==> k in Collect(cfg, env, listing).value ::
              WriteAll(d, cfg, env, Collect(cfg, env, listing).value, order) == Outcome(d, None)
  {
    var files := Scan(listing, cfg.excludeFiles, env.sep);
    ResolveAllSucceeds(cfg, env, files);
    ResolveAllFirstRejected(cfg, env, files);
    ResolveAllEntries(cfg, env, files);
    var ws := ResolveAll(cfg, env, files).value;
    GroupAllKeys(ws);
    assert GroupAll(ws).Keys == {};
    forall d: Disk, order: seq<string> | forall k :: k in order ==> k in Collect(cfg, env, listing).value
      ensures WriteAll(d, cfg, env, Collect(cfg, env, listing).value, order) == Outcome(d, None)
    {
      assert |order| == 0 || order[0] in order;
    }
  }

  /** No path is listed twice, as a directory walk lists each file once. */
  predicate DistinctPaths(listing: seq<Entry>)
  {
    forall i, j :: 0 <= i < j < |listing| ==> listing[i].path != listing[j].path
  }

  /** No file is resolved twice. */
  predicate DistinctFiles(ws: seq<Resolved>)
  {
    forall i, j :: 0 <= i < j < |ws| ==> ws[i].file != ws[j].file
  }

  lemma DistinctSnoc(xs: seq<string>, y: string)
    requires Distinct(xs) && y !in xs
    ensures Distinct(xs + [y])
  {
    forall i, j | 0 <= i < j < |xs + [y]|
      ensures (xs + [y])[i] != (xs + [y])[j]
    {
      if j == |xs| {
        assert (xs + [y])[i] == xs[i];
      }
    }
  }

  /** The scan keeps distinct paths distinct. */
  lemma {:induction false} ScanDistinct(listing: seq<Entry>, exclude: set<string>, sep: char)
    requires DistinctPaths(listing)
    ensures Distinct(Scan(listing, exclude, sep))
  {
    if listing != [] {
      var init, e := listing[..|listing| - 1], listing[|listing| - 1];
      ScanDistinct(init, exclude, sep);
      if Kept(e, exclude, sep) {
        forall e' | e' in init
          ensures e'.path != e.path
        {
          var k :| 0 <= k < |init| && init[k] == e';
          assert listing[k] == e';
        }
        DistinctSnoc(Scan(init, exclude, sep), e.path);
      }
    }
  }

  /** Resolving distinct files gives entries for distinct files. */
  lemma {:induction false} ResolveAllDistinct(cfg: Config, env: Environment, files: seq<string>)
    requires Distinct(files) && ResolveAll(cfg, env, files).Success?
    ensures DistinctFiles(ResolveAll(cfg, env, files).value)
  {
    if files != [] {
      var init, p := files[..|files| - 1], files[|files| - 1];
      assert Distinct(init);
      ResolveAllDistinct(cfg, env, init);
      var ws := ResolveAll(cfg, env, init).value;
      if Wrap(cfg, env, p).Target? {
        ResolveAllEntries(cfg, env, init);
        forall i | 0 <= i < |ws|
          ensures ws[i].file != p
        {
          assert ws[i] in ws;
          var k :| 0 <= k < |init| && init[k] == ws[i].file;
        }
      }
    }
  }

  /** A target's files in a resolution without repeated files are distinct. */
  lemma {:induction false} FilesForDistinct(ws: seq<Resolved>, k: string)
    requires DistinctFiles(ws)
    ensures Distinct(FilesFor(ws, k))
  {
    if ws != [] {
      var init, w := ws[..|ws| - 1], ws[|ws| - 1];
      assert DistinctFiles(init);
      FilesForDistinct(init, k);
      if w.target == k {
        FilesForMembers(init, k, w.file);
        forall v | v in init
          ensures v.file != w.file
        {
          var i :| 0 <= i < |init| && init[i] == v;
          assert ws[i] == v;
        }
        DistinctSnoc(FilesFor(init, k), w.file);
      }
    }
  }

  /**
   * A listing without repeated paths gives groups without repeated members,
   * which is what the group write needs to account for every member.
   */
  lemma CollectDistinct(cfg: Config, env: Environment, listing: seq<Entry>)
    requires DistinctPaths(listing) && Collect(cfg, env, listing).Success?
    ensures var groups := Collect(cfg, env, listing).value;
      forall k :: k in groups ==> Distinct(groups[k].files)
  {
    var files := Scan(listing, cfg.excludeFiles, env.sep);
    ScanDistinct(listing, cfg.excludeFiles, env.sep);
    ResolveAllDistinct(cfg, env, files);
    var ws := ResolveAll(cfg, env, files).value;
    forall k | k in GroupAll(ws)
      ensures Distinct(GroupAll(ws)[k].files)
    {
      GroupAllContents(ws, k);
      FilesForDistinct(ws, k);
    }
  }

  /**
   * The output directory: a configured merge directory, resolved against
   * the build directory, for every group; otherwise the group's common root
   * when that option is set; otherwise the default directory below the build
   * directory.
   */
  lemma OutputDirChoice(cfg: Config, env: Environment, root: seq<string>, other: seq<string>)
    ensures cfg.mergeDir != "" && IsAbsolute(cfg.mergeDir, env.sep) ==> OutputDir(cfg, env, root) == cfg.mergeDir
    ensures cfg.mergeDir != "" && !IsAbsolute(cfg.mergeDir, env.sep) ==>
              Inside(OutputDir(cfg, env, root), env.buildDir, cfg.mergeDir, env.sep)
    ensures cfg.mergeDir == "" && cfg.useCommonRootDirByGroupIfOutputDirEmpty ==>
              OutputDir(cfg, env, root) == Join(root, env.sep)
    ensures cfg.mergeDir == "" && !cfg.useCommonRootDirByGroupIfOutputDirEmpty && !IsAbsolute(DefaultMergeDir, env.sep) ==>
              Inside(OutputDir(cfg, env, root), env.buildDir, DefaultMergeDir, env.sep)
    ensures cfg.mergeDir != "" || !cfg.useCommonRootDirByGroupIfOutputDirEmpty ==>
              OutputDir(cfg, env, root) == OutputDir(cfg, env, other)
  {
  }

  /**
   * In common-root mode the output directory of each group is a prefix of
   * the path of every one of its members.
   */
  lemma CommonRootContainsMembers(cfg: Config, env: Environment, listing: seq<Entry>)
    requires Collect(cfg, env, listing).Success?
    requires cfg.mergeDir == "" && cfg.useCommonRootDirByGroupIfOutputDirEmpty
    ensures var groups := Collect(cfg, env, listing).value;
      forall k, f :: k in groups && f in groups[k].files ==> IsPrefix(OutputDir(cfg, env, groups[k].root), f)
  {
    var files := Scan(listing, cfg.excludeFiles, env.sep);
    var ws := ResolveAll(cfg, env, files).value;
    ResolveAllEntries(cfg, env, files);
    GroupMembership(ws);
    RootPrefixOfMembers(ws);
    var groups := GroupAll(ws);
    forall k, f | k in groups && f in groups[k].files
      ensures IsPrefix(OutputDir(cfg, env, groups[k].root), f)
    {
      var w :| w in ws && w.target == k && w.file == f;
      JoinedComponentsPrefix(groups[k].root, f, env.sep);
    }
  }

  /**
   * As written, a group of one file has that file's whole split path as its
   * root, file name included. In common-root mode its output directory is
   * therefore the member file itself, and writing the group fails when the
   * target is opened inside it.
   */
  lemma SingletonGroupFails(cfg: Config, env: Environment, d: Disk, w: Resolved)
    requires cfg.mergeDir == "" && cfg.useCommonRootDirByGroupIfOutputDirEmpty
    requires w.file != "" && w.file[|w.file| - 1] != env.sep && w.paths == Split(w.file, env.sep)
    requires w.file in d.files
    ensures var g := GroupAll([w])[w.target];
      && OutputDir(cfg, env, g.root) == w.file
      && WriteGroupOf(d, cfg, env, w.target, g) ==
           Outcome(d, Some(CannotCreateResourceFile(TargetPath(SettingsOf(cfg, env), w.file, w.target))))
  {
    SingletonRoot(w);
    JoinSplit(w.file, env.sep);
  }

  /**
   * In common-root mode the merged targets land inside the origin tree. On
   * the next run, once the merged members are gone, a target that matches
   * the pattern is listed on its own, forms a group of one, and writing that
   * group fails.
   */
  lemma SecondRunFails(cfg: Config, env: Environment, d: Disk, t: string)
    requires !IsBlank(cfg.filesRegex) && cfg.mergeDir == "" && cfg.useCommonRootDirByGroupIfOutputDirEmpty
    requires t != "" && t[|t| - 1] != env.sep && t in d.files
    requires Kept(Entry(t, false), cfg.excludeFiles, env.sep) && Wrap(cfg, env, t).Target?
    ensures var c := Collect(cfg, env, [Entry(t, false)]);
      var k := Wrap(cfg, env, t).name;
      && c.Success? && c.value.Keys == {k}
      && WriteGroupOf(d, cfg, env, k, c.value[k]).error == Some(CannotCreateResourceFile(TargetPath(SettingsOf(cfg, env), t, k)))
  {
    var k := Wrap(cfg, env, t).name;
    var w := Resolved(t, Split(t, env.sep), k);
    ScanSingle(Entry(t, false), cfg.excludeFiles, env.sep);
    ResolveSingle(cfg, env, t);
    SingletonGroupFails(cfg, env, d, w);
  }

  /** A listing of one kept entry scans to its path alone. */
  lemma ScanSingle(e: Entry, exclude: set<string>, sep: char)
    requires Kept(e, exclude, sep)
    ensures Scan([e], exclude, sep) == [e.path]
  {
    assert [e][..0] == [];
  }

  /** One file that matches resolves to one entry carrying its split path and its target. */
  lemma ResolveSingle(cfg: Config, env: Environment, p: string)
    requires Wrap(cfg, env, p).Target?
    ensures ResolveAll(cfg, env, [p]) == Success([Resolved(p, Split(p, env.sep), Wrap(cfg, env, p).name)])
  {
    var w := Resolved(p, Split(p, env.sep), Wrap(cfg, env, p).name);
    assert [p][..0] == [];
    assert ResolveAll(cfg, env, [p]) == Success([] + [w]);
    assert [] + [w] == [w];
  }

  /**
   * A failure ends the run: some group fails after every group before it
   * was written, and the groups after it are not visited.
   */
  lemma {:induction false} WriteAllStops(d: Disk, cfg: Config, env: Environment, groups: map<string, MergeGroup>, order: seq<string>)
      returns (i: nat)
    requires forall k :: k in order ==> k in groups
    requires WriteAll(d, cfg, env, groups, order).error.Some?
    ensures i < |order|
    ensures WriteAll(d, cfg, env, groups, order[..i]).error.None?
    ensures WriteAll(d, cfg, env, groups, order) ==
              WriteGroupOf(WriteAll(d, cfg, env, groups, order[..i]).disk, cfg, env, order[i], groups[order[i]])
  {
    var init := order[..|order| - 1];
    assert forall k :: k in init ==> k in order;
    if WriteAll(d, cfg, env, groups, init).error.Some? {
      i := WriteAllStops(d, cfg, env, groups, init);
      WriteAllKeepsError(d, cfg, env, groups, order);
      PrefixOfInit(order, i);
    } else {
      i := |order| - 1;
      assert order[..i] == init;
    }
  }

  /** An error in a prefix of the order is the error of the whole order. */
  lemma WriteAllKeepsError(d: Disk, cfg: Config, env: Environment, groups: map<string, MergeGroup>, order: seq<string>)
    requires forall k :: k in order ==> k in groups
    requires order != [] && WriteAll(d, cfg, env, groups, order[..|order| - 1]).error.Some?
    ensures WriteAll(d, cfg, env, groups, order) == WriteAll(d, cfg, env, groups, order[..|order| - 1])
  {
  }

  lemma PrefixOfInit(order: seq<string>, i: nat)
    requires i < |order| - 1
    ensures order[..|order| - 1][..i] == order[..i] && order[..|order| - 1][i] == order[i]
  {
  }

  /** Three groups, the first of which captured non-blank text, name the target by their texts in order. */
  lemma ResolveThree(a: Option<string>, b: Option<string>, c: Option<string>, path: string)
    requires |Text(a)| > 0 && Text(a)[0] > ' '
    ensures Resolve(Some([a, b, c]), "", path) == Target(Text(a) + Text(b) + Text(c))
  {
    NotBlank(Text(a));
    assert [a, b, c][0] == a;
    ResolveByGroups([a, b, c], "", path);
    ConcatThree(a, b, c);
  }

  /**
   * The message bundle example: a pattern whose groups capture the base
   * name, an optional locale suffix and the extension gives a base bundle
   * file, whose suffix group takes no part in the match, the plain target.
   */
  lemma MessageBundleTarget(path: string)
    ensures Resolve(Some([Some("message"), None, Some(".properties")]), "", path) == Target("message.properties")
  {
    ResolveThree(Some("message"), None, Some(".properties"), path);
    assert Text(Some("message")) + Text(None) + Text(Some(".properties")) == "message.properties";
  }

  /** In the same example, a locale file gives the locale target. */
  lemma MessageBundleLocaleTarget(path: string)
    ensures Resolve(Some([Some("message"), Some("_en"), Some(".properties")]), "", path) == Target("message_en.properties")
  {
    ResolveThree(Some("message"), Some("_en"), Some(".properties"), path);
    assert Text(Some("message")) + Text(Some("_en")) + Text(Some(".properties")) == "message_en.properties";
  }

  /**
   * Continuing the example: resolved entries for two bundles, in the order
   * base, other, base locale, other locale, fold into two groups of two
   * files each, every group holding its files in that order.
   */
  lemma MessageBundleGroups(base: string, biz: string, baseEn: string, bizEn: string)
    ensures var ws := [Resolved(base, [base], "message.properties"), Resolved(biz, [biz], "message.properties"),
                       Resolved(baseEn, [baseEn], "message_en.properties"), Resolved(bizEn, [bizEn], "message_en.properties")];
      && GroupAll(ws).Keys == {"message.properties", "message_en.properties"}
      && GroupAll(ws)["message.properties"].files == [base, biz]
      && GroupAll(ws)["message_en.properties"].files == [baseEn, bizEn]
  {
    var k1, k2 := "message.properties", "message_en.properties";
    assert k1 != k2 by { assert k1[7] != k2[7]; }
    var w0, w1 := Resolved(base, [base], k1), Resolved(biz, [biz], k1);
    var w2, w3 := Resolved(baseEn, [baseEn], k2), Resolved(bizEn, [bizEn], k2);
    SingletonRoot(w0);
    GroupAllStep([w0], w1);
    assert [w0] + [w1] == [w0, w1];
    var g1 := GroupAll([w0, w1]);
    assert g1.Keys == {k1} && g1[k1].files == [base, biz];
    GroupAllStep([w0, w1], w2);
    assert [w0, w1] + [w2] == [w0, w1, w2];
    var g2 := GroupAll([w0, w1, w2]);
    assert g2.Keys == {k1, k2} && g2[k1].files == [base, biz] && g2[k2].files == [baseEn];
    GroupAllStep([w0, w1, w2], w3);
    assert [w0, w1, w2] + [w3] == [w0, w1, w2, w3];
  }
}

=== FILE: target.dfy ===
/**
 * Target resolution: the file name pattern is matched against a file's bare
 * name and the name of the file it is merged into is derived, either the
 * configured merge file or the text of the capturing groups.
 */
module Target {
  import opened Wrappers
  import opened Errors

  /**
   * What the pattern engine reports for one file name: None when the whole
   * name does not match; otherwise the text captured by groups 1..gc, with
   * None for a group that took no part in the match.
   */
  type MatchResult = Option<seq<Option<string>>>

  datatype Resolution =
    | Skip
    | Target(name: string)
    | Rejected(error: MergeError)

  /**
   * A configuration string the strategy treats as unset: after trimming
   * every leading and trailing character at or below U+0020, nothing is
   * left (the `isEmpty` test of the plexus utilities, which trims).
   */
  predicate IsBlank(s: string)
  {
    forall i :: 0 <= i < |s| ==> s[i] <= ' '
  }

  /** The text a capturing group contributes: nothing when it did not participate. */
  function Text(g: Option<string>): string
  {
    match g
    case None => ""
    case Some(s) => s
  }

  /** The captured texts of `groups`, concatenated in ascending group order. */
  function Concat(groups: seq<Option<string>>): string
  {
    if groups == [] then "" else Concat(groups[..|groups| - 1]) + Text(groups[|groups| - 1])
  }

  /**
   * The target of a file whose bare name gave match result `m`. `path` is
   * the file's absolute path, named in the error for an empty target.
   */
  function Resolve(m: MatchResult, mergeFile: string, path: string): (r: Resolution)
    ensures r.Skip? <==> m.None?
    ensures r.Target? ==> r.name != "" && !IsBlank(r.name)
    ensures m.Some? && !IsBlank(mergeFile) ==> r == Target(mergeFile)
    ensures m.Some? && IsBlank(mergeFile) && r.Target? ==> r.name == Concat(m.value)
    ensures r.Rejected? ==> IsBlank(mergeFile) && m.Some?
    ensures r.Rejected? ==> r.error == NoCapturingGroup || r.error == EmptyTargetFilename(path)
  {
    match m
    case None => Skip
    case Some(groups) =>
      if !IsBlank(mergeFile) then Target(mergeFile)
      else if |groups| == 0 then Rejected(NoCapturingGroup)
      else if IsBlank(Concat(groups)) then Rejected(EmptyTargetFilename(path))
      else Target(Concat(groups))
  }

  /** Resolution as the strategy computes it, building the name group by group. */
  method ResolveTarget(m: MatchResult, mergeFile: string, path: string) returns (r: Resolution)
    ensures r == Resolve(m, mergeFile, path)
  {
    if m.None? {
      return Skip;
    }
    if !IsBlank(mergeFile) {
      return Target(mergeFile);
    }
    var groups := m.value;
    var gc := |groups|;
    if gc <= 0 {
      return Rejected(NoCapturingGroup);
    }
    var sb := "";
    for i := 1 to gc + 1
      invariant sb == Concat(groups[..i - 1])
    {
      var s := groups[i - 1];
      if s.Some? {
        sb := sb + s.value;
      }
      assert groups[..i] == groups[..i - 1] + [groups[i - 1]];
    }
    assert groups[..gc] == groups;
    if IsBlank(sb) {
      return Rejected(EmptyTargetFilename(path));
    }
    r := Target(sb);
  }

  /** Concatenation distributes over splitting the group list. */
  lemma {:induction false} ConcatAppend(a: seq<Option<string>>, b: seq<Option<string>>)
    ensures Concat(a + b) == Concat(a) + Concat(b)
  {
    if b == [] {
      assert a + b == a;
    } else {
      var b', last := b[..|b| - 1], b[|b| - 1];
      ConcatAppend(a, b');
      LastOfAppend(a, b);
      var x, y, z := Concat(a), Concat(b'), Text(last);
      assert Concat(a + b) == (x + y) + z;
      assert Concat(b) == y + z;
      StringAssociative(x, y, z);
    }
  }

  lemma StringAssociative(x: string, y: string, z: string)
    ensures (x + y) + z == x + (y + z)
  {
  }

  /** Taking the last group off `a + b` takes it off `b`. */
  lemma LastOfAppend(a: seq<Option<string>>, b: seq<Option<string>>)
    requires b != []
    ensures (a + b)[..|a + b| - 1] == a + b[..|b| - 1]
    ensures (a + b)[|a + b| - 1] == b[|b| - 1]
  {
  }

  /**
   * The groups appear in ascending order: group `i` contributes its text
   * right after the texts of the groups before it.
   */
  lemma {:induction false} ConcatAt(groups: seq<Option<string>>, i: nat)
    requires i < |groups|
    ensures Concat(groups) == Concat(groups[..i]) + Text(groups[i]) + Concat(groups[i + 1..])
  {
    var front, g, back := groups[..i], groups[i], groups[i + 1..];
    assert groups == (front + [g]) + back;
    ConcatAppend(front + [g], back);
    ConcatAppend(front, [g]);
    assert [g][..0] == [];
    assert Concat([g]) == Text(g);
  }

  /** A text whose first character is above U+0020 is not blank. */
  lemma NotBlank(s: string)
    requires |s| > 0 && s[0] > ' '
    ensures !IsBlank(s)
  {
  }

  /** Two texts together are blank exactly when each of them is. */
  lemma BlankAppend(a: string, b: string)
    ensures IsBlank(a + b) <==> IsBlank(a) && IsBlank(b)
  {
    assert forall i :: 0 <= i < |a| ==> (a + b)[i] == a[i];
    assert forall i :: 0 <= i < |b| ==> (a + b)[|a| + i] == b[i];
  }

  /** The concatenation is blank exactly when every group is absent or captured only blanks. */
  lemma {:induction false} ConcatBlank(groups: seq<Option<string>>)
    ensures IsBlank(Concat(groups)) <==> forall i :: 0 <= i < |groups| ==> IsBlank(Text(groups[i]))
  {
    if groups != [] {
      var init := groups[..|groups| - 1];
      ConcatBlank(init);
      BlankAppend(Concat(init), Text(groups[|groups| - 1]));
      assert forall i :: 0 <= i < |init| ==> init[i] == groups[i];
    }
  }

  /**
   * Without a merge file (an unset or blank one), a matched name's target is
   * exactly the ordered concatenation of its captured texts, unless there is
   * no group or the concatenation is blank, which are configuration errors.
   */
  lemma ResolveByGroups(groups: seq<Option<string>>, mergeFile: string, path: string)
    requires IsBlank(mergeFile)
    ensures |groups| == 0 ==> Resolve(Some(groups), mergeFile, path) == Rejected(NoCapturingGroup)
    ensures |groups| > 0 && (forall i :: 0 <= i < |groups| ==> IsBlank(Text(groups[i]))) ==>
              Resolve(Some(groups), mergeFile, path) == Rejected(EmptyTargetFilename(path))
    ensures (exists i :: 0 <= i < |groups| && !IsBlank(Text(groups[i]))) ==>
              Resolve(Some(groups), mergeFile, path) == Target(Concat(groups))
  {
    ConcatBlank(groups);
  }

  /** The name three groups give: their texts in order. */
  lemma ConcatThree(a: Option<string>, b: Option<string>, c: Option<string>)
    ensures Concat([a, b, c]) == Text(a) + Text(b) + Text(c)
  {
    assert [a][..0] == [];
    assert Concat([a]) == "" + Text(a) == Text(a);
    assert [a, b][..1] == [a];
    assert [a, b, c][..2] == [a, b];
  }
}

=== FILE: wrappers.dfy ===
/** An optional value and a value-or-error result, shared by the model's modules. */
module Wrappers {

  datatype Option<+T> = None | Some(value: T)

  datatype Result<+R, +E> = Success(value: R) | Failure(error: E)
}

=== FILE: writer.dfy ===
/**
 * The write stage: one group is appended to its target file member by
 * member, each member preceded by separator newlines and a comment, and each
 * merged member is then deleted.
 */
module Writer {
  import opened Wrappers
  import opened Errors
  import opened Paths
  import opened FileSystem

  /** The write settings of one run. */
  datatype Settings = Settings(
    sep: char,
    /** The platform line separator, encoded. */
    newline: seq<Byte>,
    newlineCount: int,
    commentFormat: string,
    /** The comment format applied to a bare file name, encoded. */
    format: (string, string) -> seq<Byte>,
    deletable: bool,
    retryable: bool)

  datatype Outcome = Outcome(disk: Disk, error: Option<MergeError>)

  /** `n` copies of `b`. */
  function Repeat(b: seq<Byte>, n: nat): (r: seq<Byte>)
    ensures |r| == n * |b|
  {
    if n == 0 then [] else Repeat(b, n - 1) + b
  }

  /**
   * Copies add up: `m + n` copies are `m` copies followed by `n` copies.
   * With a single copy being `b` itself, this fixes every byte written.
   */
  lemma {:induction false} RepeatAdd(b: seq<Byte>, m: nat, n: nat)
    ensures Repeat(b, 1) == b
    ensures Repeat(b, m + n) == Repeat(b, m) + Repeat(b, n)
    decreases n
  {
    assert Repeat(b, 1) == [] + b;
    if n == 0 {
      assert Repeat(b, m) + [] == Repeat(b, m);
    } else {
      RepeatAdd(b, m, n - 1);
      AppendAssociative(Repeat(b, m), Repeat(b, n - 1), b);
    }
  }

  /**
   * The newlines written before member `i` of a target that held `l` bytes
   * when opened: none for the first member of an empty target.
   */
  function Separator(s: Settings, l: nat, i: nat): seq<Byte>
  {
    if s.newlineCount > 0 && (l > 0 || i > 0) then Repeat(s.newline, s.newlineCount) else []
  }

  /** The comment written before a member, from its bare name. */
  function Comment(s: Settings, member: string): seq<Byte>
  {
    if s.commentFormat != "" then s.format(s.commentFormat, FileName(member, s.sep)) else []
  }

  /** What member `i` adds to the target, given the files before the group was written. */
  function Block(s: Settings, files: map<string, seq<Byte>>, target: string, l: nat, members: seq<string>, i: nat): seq<Byte>
    requires i < |members|
  {
    var m := members[i];
    if m == target || m !in files then [] else Separator(s, l, i) + Comment(s, m) + files[m]
  }

  /** What members `i..` add to the target, in list order. */
  function BlocksFrom(s: Settings, files: map<string, seq<Byte>>, target: string, l: nat, members: seq<string>, i: nat): seq<Byte>
    requires i <= |members|
    decreases |members| - i
  {
    if i == |members| then [] else Block(s, files, target, l, members, i) + BlocksFrom(s, files, target, l, members, i + 1)
  }

  /** Member `i` processed against the open target. */
  function MemberStep(d: Disk, s: Settings, target: string, l: nat, members: seq<string>, i: nat): (r: Outcome)
    requires target in d.files && i < |members|
    ensures target in r.disk.files
  {
    var m := members[i];
    if m == target then Outcome(d, None)
    else if m !in d.files then Outcome(d, Some(CannotCreateResourceFile(target)))
    else
      var written := d.(files := d.files[target := d.files[target] + Separator(s, l, i) + Comment(s, m) + d.files[m]]);
      var del := DeleteOn(written, m, s.deletable, s.retryable);
      Outcome(del.disk, if del.ok then None else Some(CannotDeleteResource(m)))
  }

  /** Members `i..` processed in list order, stopping at the first failure. */
  function RunMembers(d: Disk, s: Settings, target: string, l: nat, members: seq<string>, i: nat): (r: Outcome)
    requires target in d.files && i <= |members|
    ensures target in r.disk.files
    decreases |members| - i
  {
    if i == |members| then Outcome(d, None)
    else
      var o := MemberStep(d, s, target, l, members, i);
      if o.error.Some? then o else RunMembers(o.disk, s, target, l, members, i + 1)
  }

  /** The target file `name` inside `dir`, as opened for a group. */
  function TargetPath(s: Settings, dir: string, name: string): string
  {
    Child(dir, name, s.sep)
  }

  /**
   * Writing one group into `name` inside `dir`. The empty path cannot be
   * created as a directory; a directory path that is a regular file makes
   * opening the target fail.
   */
  function WriteGroup(d: Disk, s: Settings, dir: string, name: string, members: seq<string>): Outcome
  {
    var target := TargetPath(s, dir, name);
    if dir == "" then Outcome(d, Some(CannotCreateOutputDir(dir)))
    else if dir in d.files then Outcome(d, Some(CannotCreateResourceFile(target)))
    else
      var l := if target in d.files then |d.files[target]| else 0;
      var atOpen := d.(files := d.files[target := if target in d.files then d.files[target] else []]);
      RunMembers(atOpen, s, target, l, members, 0)
  }

  /** Appends `count` line separators to the open target. */
  method AppendNewlines(fs: FileSystem, target: string, newline: seq<Byte>, count: nat)
    requires target in fs.files
    modifies fs
    ensures fs.files == old(fs.files)[target := old(fs.files)[target] + Repeat(newline, count)]
    ensures fs.outcomes == old(fs.outcomes)
  {
    ghost var start := fs.files[target];
    assert start + Repeat(newline, 0) == start;
    assert old(fs.files)[target := start + Repeat(newline, 0)] == old(fs.files);
    for j := 0 to count
      invariant fs.outcomes == old(fs.outcomes)
      invariant fs.files == old(fs.files)[target := start + Repeat(newline, j)]
    {
      fs.Append(target, newline);
      assert start + Repeat(newline, j) + newline == start + Repeat(newline, j + 1);
    }
  }

  /** Appends member `i`'s separator, comment and bytes to the open target. */
  method AppendBlock(fs: FileSystem, s: Settings, target: string, l: nat, members: seq<string>, i: nat)
    requires target in fs.files && i < |members| && members[i] in fs.files
    modifies fs
    ensures fs.files == old(fs.files)[target := old(fs.files)[target] + Separator(s, l, i) + Comment(s, members[i]) + old(fs.files)[members[i]]]
    ensures fs.outcomes == old(fs.outcomes)
  {
    var member := members[i];
    var content := fs.files[member];
    ghost var start := fs.files[target];
    if s.newlineCount > 0 && (l > 0 || i > 0) {
      AppendNewlines(fs, target, s.newline, s.newlineCount);
    } else {
      assert start + Separator(s, l, i) == start;
      assert old(fs.files)[target := start + Separator(s, l, i)] == old(fs.files);
    }
    assert fs.files == old(fs.files)[target := start + Separator(s, l, i)];
    if s.commentFormat != "" {
      fs.Append(target, s.format(s.commentFormat, FileName(member, s.sep)));
    } else {
      assert start + Separator(s, l, i) + Comment(s, member) == start + Separator(s, l, i);
    }
    assert fs.files == old(fs.files)[target := start + Separator(s, l, i) + Comment(s, member)];
    fs.Append(target, content);
  }

  /** Writes member `i` into the open target and deletes it, as one turn of the write loop does. */
  method WriteMember(fs: FileSystem, s: Settings, target: string, l: nat, members: seq<string>, i: nat)
      returns (err: Option<MergeError>)
    requires target in fs.files && i < |members|
    modifies fs
    ensures fs.State() == MemberStep(old(fs.State()), s, target, l, members, i).disk
    ensures err == MemberStep(old(fs.State()), s, target, l, members, i).error
  {
    var member := members[i];
    if member == target {
      return None;
    }
    if member !in fs.files {
      return Some(CannotCreateResourceFile(target));
    }
    AppendBlock(fs, s, target, l, members, i);
    var ok := fs.Delete(member, s.deletable, s.retryable);
    if !ok {
      return Some(CannotDeleteResource(member));
    }
    return None;
  }

  /** Appends one group to its target, as the strategy's write loop does. */
  method WriteGroupTo(fs: FileSystem, s: Settings, dir: string, name: string, members: seq<string>)
      returns (err: Option<MergeError>)
    modifies fs
    ensures fs.State() == WriteGroup(old(fs.State()), s, dir, name, members).disk
    ensures err == WriteGroup(old(fs.State()), s, dir, name, members).error
  {
    var target := TargetPath(s, dir, name);
    if dir == "" {
      return Some(CannotCreateOutputDir(dir));
    }
    if dir in fs.files {
      return Some(CannotCreateResourceFile(target));
    }
    var l := fs.OpenForAppend(target);
    ghost var atOpen := fs.State();
    for i := 0 to |members|
      invariant target in fs.files
      invariant RunMembers(fs.State(), s, target, l, members, i) == RunMembers(atOpen, s, target, l, members, 0)
    {
      err := WriteMember(fs, s, target, l, members, i);
      if err.Some? {
        return err;
      }
    }
    return None;
  }

  predicate Distinct<T(==)>(xs: seq<T>)
  {
    forall i, j :: 0 <= i < j < |xs| ==> xs[i] != xs[j]
  }

  /** The blocks of members `i..` only read the files of those members. */
  lemma {:induction false} BlocksFromFrame(s: Settings, f1: map<string, seq<Byte>>, f2: map<string, seq<Byte>>,
                                           target: string, l: nat, members: seq<string>, i: nat)
    requires i <= |members|
    requires forall j :: i <= j < |members| && members[j] != target ==>
               (members[j] in f1 <==> members[j] in f2) && (members[j] in f1 ==> f1[members[j]] == f2[members[j]])
    ensures BlocksFrom(s, f1, target, l, members, i) == BlocksFrom(s, f2, target, l, members, i)
    decreases |members| - i
  {
    if i < |members| {
      BlocksFromFrame(s, f1, f2, target, l, members, i + 1);
    }
  }

  /**
   * One member written and deleted without failure: the target grows by the
   * member's block; the member is gone when deletion is enabled and
   * unchanged otherwise; no other file changes.
   */
  lemma MemberStepSuccess(d: Disk, s: Settings, target: string, l: nat, members: seq<string>, i: nat)
    requires target in d.files && i < |members|
    requires MemberStep(d, s, target, l, members, i).error.None?
    ensures var out := MemberStep(d, s, target, l, members, i).disk;
      out.files[target] == d.files[target] + Block(s, d.files, target, l, members, i)
    ensures var out := MemberStep(d, s, target, l, members, i).disk;
      var m := members[i];
      m != target ==>
        m in d.files &&
        (s.deletable ==> m !in out.files) &&
        (!s.deletable ==> m in out.files && out.files[m] == d.files[m])
    ensures var out := MemberStep(d, s, target, l, members, i).disk;
      forall p :: p != target && p != members[i] ==>
        (p in out.files <==> p in d.files) && (p in out.files ==> out.files[p] == d.files[p])
  {
  }

  /** The files other than `target` and those in `ps` are the same in both maps. */
  ghost predicate SameOutside(f1: map<string, seq<Byte>>, f2: map<string, seq<Byte>>, target: string, ps: seq<string>)
  {
    forall p :: p != target && p !in ps ==> (p in f1 <==> p in f2) && (p in f1 ==> f1[p] == f2[p])
  }

  /** Writing members `i..` without failure changes no file but the target and those members. */
  lemma {:induction false} RunMembersFrame(d: Disk, s: Settings, target: string, l: nat, members: seq<string>, i: nat)
    requires target in d.files && i <= |members|
    requires RunMembers(d, s, target, l, members, i).error.None?
    ensures SameOutside(d.files, RunMembers(d, s, target, l, members, i).disk.files, target, members[i..])
    decreases |members| - i
  {
    if i < |members| {
      var d' := MemberStep(d, s, target, l, members, i).disk;
      MemberStepSuccess(d, s, target, l, members, i);
      RunMembersFrame(d', s, target, l, members, i + 1);
      assert members[i..] == [members[i]] + members[i + 1..];
    }
  }

  /**
   * When members `i..` are all written without failure, each of them other
   * than the target was present, and is gone afterwards when deletion is
   * enabled and unchanged otherwise.
   */
  lemma {:induction false} RunMembersDeleted(d: Disk, s: Settings, target: string, l: nat, members: seq<string>, i: nat)
    requires target in d.files && i <= |members| && Distinct(members)
    requires RunMembers(d, s, target, l, members, i).error.None?
    ensures var out := RunMembers(d, s, target, l, members, i).disk;
      forall j :: i <= j < |members| && members[j] != target ==>
        members[j] in d.files &&
        (s.deletable ==> members[j] !in out.files) &&
        (!s.deletable ==> members[j] in out.files && out.files[members[j]] == d.files[members[j]])
    decreases |members| - i
  {
    if i < |members| {
      var m := members[i];
      var d' := MemberStep(d, s, target, l, members, i).disk;
      MemberStepSuccess(d, s, target, l, members, i);
      RunMembersDeleted(d', s, target, l, members, i + 1);
      RunMembersFrame(d', s, target, l, members, i + 1);
      assert m !in members[i + 1..];
    }
  }

  /**
   * When members `i..` are all written without failure, the target has
   * grown by exactly their blocks, in list order.
   */
  lemma {:induction false} RunMembersContent(d: Disk, s: Settings, target: string, l: nat, members: seq<string>, i: nat)
    requires target in d.files && i <= |members| && Distinct(members)
    requires RunMembers(d, s, target, l, members, i).error.None?
    ensures RunMembers(d, s, target, l, members, i).disk.files[target] ==
              d.files[target] + BlocksFrom(s, d.files, target, l, members, i)
    decreases |members| - i
  {
    if i < |members| {
      var d' := MemberStep(d, s, target, l, members, i).disk;
      MemberStepSuccess(d, s, target, l, members, i);
      RunMembersContent(d', s, target, l, members, i + 1);
      assert forall j :: i + 1 <= j < |members| ==> members[j] != members[i];
      BlocksFromFrame(s, d.files, d'.files, target, l, members, i + 1);
      AppendAssociative(d.files[target], Block(s, d.files, target, l, members, i), BlocksFrom(s, d.files, target, l, members, i + 1));
    }
  }

  lemma AppendAssociative(a: seq<Byte>, b: seq<Byte>, c: seq<Byte>)
    ensures a + b + c == a + (b + c)
  {
  }

  /**
   * A group whose write completes leaves its target holding the bytes it
   * had before (none if it was new) followed by one block per member in list
   * order: a member that is the target itself adds nothing and stays; every
   * other member adds its separator newlines, its comment and its bytes, and
   * is deleted when deletion is enabled. No other file changes.
   */
  lemma WriteGroupSuccess(d: Disk, s: Settings, dir: string, name: string, members: seq<string>)
    requires Distinct(members)
    requires WriteGroup(d, s, dir, name, members).error.None?
    ensures dir != "" && dir !in d.files
    ensures var target := TargetPath(s, dir, name);
      var out := WriteGroup(d, s, dir, name, members).disk;
      var l := if target in d.files then |d.files[target]| else 0;
      && target in out.files
      && out.files[target] == (if target in d.files then d.files[target] else []) + BlocksFrom(s, d.files, target, l, members, 0)
      && (forall m :: m in members && m != target ==> m in d.files && (s.deletable <==> m !in out.files))
      && (forall p :: p != target && p !in members ==>
            (p in out.files <==> p in d.files) && (p in out.files ==> out.files[p] == d.files[p]))
  {
    var target := TargetPath(s, dir, name);
    var l := if target in d.files then |d.files[target]| else 0;
    var atOpen := d.(files := d.files[target := if target in d.files then d.files[target] else []]);
    RunMembersContent(atOpen, s, target, l, members, 0);
    RunMembersDeleted(atOpen, s, target, l, members, 0);
    RunMembersFrame(atOpen, s, target, l, members, 0);
    BlocksFromFrame(s, atOpen.files, d.files, target, l, members, 0);
    assert members[0..] == members;
    forall m | m in members && m != target
      ensures m in d.files && (s.deletable <==> m !in WriteGroup(d, s, dir, name, members).disk.files)
    {
      var j :| 0 <= j < |members| && members[j] == m;
    }
  }

  /**
   * A failed group write names the empty output directory, the target it
   * could not create or fill, or the member it could not delete.
   */
  lemma WriteGroupFailure(d: Disk, s: Settings, dir: string, name: string, members: seq<string>)
    requires WriteGroup(d, s, dir, name, members).error.Some?
    ensures var e := WriteGroup(d, s, dir, name, members).error.value;
      || (e == CannotCreateOutputDir(dir) && dir == "")
      || e == CannotCreateResourceFile(TargetPath(s, dir, name))
      || (e.CannotDeleteResource? && e.path in members && e.path != TargetPath(s, dir, name))
  {
    var target := TargetPath(s, dir, name);
    if dir != "" && dir !in d.files {
      var l := if target in d.files then |d.files[target]| else 0;
      var atOpen := d.(files := d.files[target := if target in d.files then d.files[target] else []]);
      RunMembersFailure(atOpen, s, target, l, members, 0);
    }
  }

  lemma {:induction false} RunMembersFailure(d: Disk, s: Settings, target: string, l: nat, members: seq<string>, i: nat)
    requires target in d.files && i <= |members|
    requires RunMembers(d, s, target, l, members, i).error.Some?
    ensures var e := RunMembers(d, s, target, l, members, i).error.value;
      e == CannotCreateResourceFile(target) || (e.CannotDeleteResource? && e.path in members[i..] && e.path != target)
    decreases |members| - i
  {
    var o := MemberStep(d, s, target, l, members, i);
    if o.error.None? {
      RunMembersFailure(o.disk, s, target, l, members, i + 1);
      assert members[i + 1..] == members[i..][1..];
    }
  }

  /**
   * The separator rule, as it shows in the written target: a target that was
   * absent or empty starts with the first member's comment and bytes, with
   * no newlines before them; a target that held bytes gets exactly
   * `newlineCount` newlines (when positive) between its old bytes and the
   * first member. The whole target is the old bytes, the first member's
   * block and then the later blocks, each of which starts with exactly
   * `newlineCount` newlines, whatever the target held.
   */
  lemma SeparatorRule(d: Disk, s: Settings, dir: string, name: string, members: seq<string>)
    requires Distinct(members)
    requires WriteGroup(d, s, dir, name, members).error.None?
    requires members != [] && members[0] != TargetPath(s, dir, name)
    ensures var target := TargetPath(s, dir, name);
      var before := if target in d.files then d.files[target] else [];
      var out := WriteGroup(d, s, dir, name, members).disk.files;
      && members[0] in d.files && target in out
      && (before == [] ==> IsPrefix(Comment(s, members[0]) + d.files[members[0]], out[target]))
      && (before != [] && s.newlineCount > 0 ==>
            IsPrefix(before + Repeat(s.newline, s.newlineCount) + Comment(s, members[0]) + d.files[members[0]], out[target]))
      && (before != [] && s.newlineCount <= 0 ==>
            IsPrefix(before + Comment(s, members[0]) + d.files[members[0]], out[target]))
    ensures var target := TargetPath(s, dir, name);
      var before := if target in d.files then d.files[target] else [];
      WriteGroup(d, s, dir, name, members).disk.files[target] ==
        before + (Separator(s, |before|, 0) + Comment(s, members[0]) + d.files[members[0]]) +
        LaterBlocks(s, d.files, target, members[1..])
  {
    var target := TargetPath(s, dir, name);
    var before := if target in d.files then d.files[target] else [];
    var l := if target in d.files then |d.files[target]| else 0;
    WrittenTarget(d, s, dir, name, members);
    var first := Block(s, d.files, target, l, members, 0);
    var rest := BlocksFrom(s, d.files, target, l, members, 1);
    assert BlocksFrom(s, d.files, target, l, members, 0) == first + rest;
    assert first == Separator(s, |before|, 0) + Comment(s, members[0]) + d.files[members[0]];
    FirstBlockPrefix(s, before, Comment(s, members[0]), d.files[members[0]], rest);
    BlocksFromLater(s, d.files, target, l, members, 1);
    AppendAssociative(before, first, rest);
  }

  /** The part of a successful write that the separator rule reads: the target and the first member. */
  lemma WrittenTarget(d: Disk, s: Settings, dir: string, name: string, members: seq<string>)
    requires Distinct(members)
    requires WriteGroup(d, s, dir, name, members).error.None?
    requires members != [] && members[0] != TargetPath(s, dir, name)
    ensures var target := TargetPath(s, dir, name);
      var out := WriteGroup(d, s, dir, name, members).disk.files;
      var l := if target in d.files then |d.files[target]| else 0;
      && members[0] in d.files && target in out
      && out[target] == (if target in d.files then d.files[target] else []) + BlocksFrom(s, d.files, target, l, members, 0)
  {
    WriteGroupSuccess(d, s, dir, name, members);
    assert members[0] in members;
  }

  /** Where the first member's comment and bytes sit in a target that held `before`. */
  lemma FirstBlockPrefix(s: Settings, before: seq<Byte>, c: seq<Byte>, bytes: seq<Byte>, rest: seq<Byte>)
    ensures var out := before + ((Separator(s, |before|, 0) + c + bytes) + rest);
      && (before == [] ==> IsPrefix(c + bytes, out))
      && (before != [] && s.newlineCount > 0 ==> IsPrefix(before + Repeat(s.newline, s.newlineCount) + c + bytes, out))
      && (before != [] && s.newlineCount <= 0 ==> IsPrefix(before + c + bytes, out))
  {
    var first := Separator(s, |before|, 0) + c + bytes;
    PrefixOfAppend(before + first, rest);
    AppendAssociative(before, first, rest);
    if before == [] {
      assert before + first == c + bytes;
    } else if s.newlineCount > 0 {
      assert before + first == before + Repeat(s.newline, s.newlineCount) + c + bytes;
    } else {
      assert before + first == before + c + bytes;
    }
  }

  /**
   * What the members after the first add to the target, defined member by
   * member: each one present and other than the target is preceded by
   * exactly `newlineCount` newlines (none when not positive), whatever the
   * target held.
   */
  function LaterBlocks(s: Settings, files: map<string, seq<Byte>>, target: string, ms: seq<string>): seq<Byte>
  {
    if ms == [] then []
    else
      (if ms[0] == target || ms[0] !in files then []
       else (if s.newlineCount > 0 then Repeat(s.newline, s.newlineCount) else []) + Comment(s, ms[0]) + files[ms[0]])
      + LaterBlocks(s, files, target, ms[1..])
  }

  /** From the second member on, the blocks written are the later blocks. */
  lemma {:induction false} BlocksFromLater(s: Settings, files: map<string, seq<Byte>>, target: string, l: nat,
                                           members: seq<string>, i: nat)
    requires 0 < i <= |members|
    ensures BlocksFrom(s, files, target, l, members, i) == LaterBlocks(s, files, target, members[i..])
    decreases |members| - i
  {
    if i < |members| {
      BlocksFromLater(s, files, target, l, members, i + 1);
      assert members[i..][1..] == members[i + 1..];
    }
  }

  lemma PrefixOfAppend(a: seq<Byte>, b: seq<Byte>)
    ensures IsPrefix(a, a + b)
  {
    assert (a + b)[..|a|] == a;
  }
}
